=== FILE: README.md ===
# Modified Jordan exceptions, verified

This project models the elimination core of a small Go web application. The application
solves linear systems step by step with the *modified Jordan exception*. Three things are
modelled:

- **A tableau**: a rectangular matrix with a label on every row and every column. Column 0
  is labelled `"1"` (the constants), the variable columns `"x1"`, `"x2"`, …, and the rows
  start out labelled `"0"`: each row is an equation stating that its combination is zero.
- **One exchange on a pivot cell (p, q)**. The row label of p and the column label of q
  trade places, and every cell is recomputed from the pivot value v:
  - the pivot becomes 1/v;
  - the rest of the pivot row becomes −a/v;
  - the rest of the pivot column becomes ±a/v;
  - every other cell follows the rectangle rule.
- **Two drivers built on the exchange**, each with its own solution reader:
  - `ZeroEngine` models `Zero.go`, the simple variant. Round k pivots on the diagonal cell
    (k, k+1) for min(rows, columns − 1) rounds. A pivot below 1e-9 aborts the run. The
    solution is read from the rows whose label names a variable.
  - `MatrixEngine` models `matrix.go`, the variant the application uses. Stage i picks the
    first unused column of row i−1 whose value exceeds 1e-9, interchanging a later row in
    first when row i−1 has none. It exchanges with every cell rounded to three decimals. It
    then reports an inconsistent `0 = c` row, drops the columns labelled `"0"` and the zero
    rows, and checks again. The general solution is read off as structured equations.

`Grid` holds what both share:

- the tableau and the step record;
- selection by a mask (`Positions`, `Gather`);
- the meaning of a tableau: `Holds(t, env)` says that, under the assignment `env`, every
  row label's value equals the row's dot product with the column labels' values.

Every method with a loop is proved equal to a specification function of its inputs. The
properties of the source are then lemmas about those functions:

- the unrounded matrix.go exchange is an involution and keeps the tableau's meaning;
- the Zero.go exchange keeps the meaning only when the pivot row's label has the value 0;
- the stages use distinct, fresh pivot columns;
- an error is reported only for a genuine `0 = c` row;
- trimming is idempotent and keeps the meaning;
- each extracted equation says what its row says.

Three points where the code departs from what the method would lead a reader to expect; the model follows the code:

- The ordinary Jordan exception, which `matrix.go:92-97` follows, puts 1/v on the pivot,
  −a/v in the pivot row and +a/v in the pivot column. `Zero.go` negates the pivot column as
  well, writing −a/v there (`Zero.go:103-107`). `ZeroEngine.TwiceIsNotIdentity` and
  `ZeroEngine.NonzeroPivotRowBreaksMeaning` show what this changes. The driver of `Zero.go`
  always pivots on a row whose label is still `"0"`, so its results keep the meaning
  (`ZeroEngine.TraceKeepsMeaning`).
- `getEguations` prints each coefficient with the sign it has in the tableau
  (`matrix.go:236-245`); nothing is negated. With the meaning used here that is the right
  sign (`MatrixEngine.RowEquationHolds`). The equations come out in row order for the
  basic variables, then in column order for the free ones (`matrix.go:218-274`), not sorted
  by variable name (`MatrixEngine.GetEquations`).
- Solving the final trimmed tableau again is not a no-op: stages are run up to the rank
  whenever a row still has an allowed column, whatever its label. `MatrixEngine.ResolveTakesStep`
  solves 1 + x1 − 2·x2 = 0 into x1 = −1 + 2·x2, and solving that again takes another step.

## Model

| member | source | states |
|---|---|---|
| `ZeroEngine.JordanStep` | Zero.go:79-122 | A bounds error exactly when the pivot lies outside the matrix. A zero-pivot error carrying (p, q) exactly when the pivot is inside and below 1e-9 in magnitude. Otherwise the row label of p and the column label of q trade places, and every cell is 1/v, −a/v in the pivot row or column, or a_ij − a_iq·a_pj/v. |
| `ZeroEngine.ExchangeTwice` | Zero.go:95-119 | Exchanging twice on the same cell restores the pivot, the pivot row and the pivot column. Every other cell moves by −2·a_iq·a_pj/v. |
| `ZeroEngine.TwiceIsNotIdentity` | Zero.go:103-107 | On [[1,1],[1,1]] two exchanges on (0,1) do not give the matrix back, so the −a/v pivot column makes the exchange no involution. |
| `ZeroEngine.PivotMeaning` | Zero.go:93-119 | Suppose an assignment satisfies every row before the exchange. After it, the pivot row still holds, and every other row i is off by exactly 2·(a_iq/v)·(value of the old pivot-row label). |
| `ZeroEngine.PivotOnZeroRowKeepsMeaning` | Zero.go:93-119 | When the pivot row's label has the value 0, the exchange keeps every row equation that held. |
| `ZeroEngine.NonzeroPivotRowBreaksMeaning` | Zero.go:103-107 | A concrete tableau and assignment that satisfy every row, where one exchange produces a row that no longer holds. |
| `ZeroEngine.SolveSteps` | Zero.go:124-159 | The result is the trace of rounds 0 .. min(rows, columns−1)−1 on the diagonal cells (k, k+1): one step per round, or the first failing round's error. |
| `ZeroEngine.TraceSucceeds` | Zero.go:131-156 | A successful run has one step per round. Step s pivots on (s, s+1), and its tableau is jordanStep applied to the previous step's tableau (the input for the first step). |
| `ZeroEngine.TraceFails` | Zero.go:133-142 | A failing run fails at a round r in 1 .. numIterations, always with a zero pivot at (r−1, r), never with bad coordinates. The rounds before r all succeed, and the tableau they reach has a value below 1e-9 at (r−1, r). |
| `ZeroEngine.TraceKeepsMeaning` | Zero.go:124-159 | Suppose every row still to be pivoted carries a label of value 0, as the all-`"0"` start does. Then every recorded step satisfies every equation the input satisfies. |
| `ZeroEngine.GetSolutionVector` | Zero.go:161-175 | Nothing exactly for an empty trace. Otherwise, for each row of the last step labelled by a variable, in row order, that label with the row's column-0 value. |
| `Grid.PivotRowMeaning` | matrix.go:92-95 | A pivot row made of 1/v and −a/v expresses the old column variable exactly: its dot product with the new column values is that variable's value. |
| `Grid.OtherRowMeaning` | matrix.go:96-100 | A rectangle-rule row with any pivot-column cell c is off by (c − a_iq/v) times the old pivot-row value. |
| `MatrixEngine.MatrixRank` | matrix.go:48-56 | 0 for no rows. Otherwise one of the row count and the column count minus one, and no larger than either. |
| `MatrixEngine.FirstAllowed` | matrix.go:58-75 | The result is −1 or an allowed column at or after the start, and no allowed column comes before it. Allowed means ≥ 1, not used, and beyond 1e-9. |
| `MatrixEngine.AllowEntry` | matrix.go:58-75 | The lowest column ≥ 1 that is not in the used list and whose value exceeds 1e-9, or −1 exactly when there is none. |
| `MatrixEngine.RoundHalfAway` | matrix.go:102 | math.Round: within 1/2 of x, with halves rounded away from zero. |
| `MatrixEngine.Round3` | matrix.go:102 | Rounding to three decimals moves a value by at most 0.0005. |
| `MatrixEngine.Round3Idempotent` | matrix.go:102 | Rounding an already rounded value changes nothing. |
| `MatrixEngine.JordanovaException` | matrix.go:77-107 | For a pivot below 1e-12 the input comes back unchanged. Otherwise the labels trade places and each cell is the exact exchange (1/v, −a/v, +a/v, (a·v − a_iq·a_pj)/v) rounded to three decimals, so within 0.0005 of it. |
| `MatrixEngine.ExactExchangeTwice` | matrix.go:89-101 | Without rounding, exchanging twice on the same cell gives back the very same tableau, labels included. |
| `MatrixEngine.ExactExchangeKeepsMeaning` | matrix.go:87-101 | Without rounding, an assignment satisfies the tableau after the exchange exactly when it satisfied it before. |
| `MatrixEngine.FirstContradiction` | matrix.go:183-199 | None exactly when no row from the start on is a `"0"` row reading 0 = c with c beyond 1e-9. Otherwise the error of the first such row, carrying c. |
| `MatrixEngine.CheckFinalZeroEquations` | matrix.go:183-199 | The error of the first contradicting row, or none. |
| `MatrixEngine.TrimLeavesNoZeros` | matrix.go:289-337 | After trimming, no column is labelled `"0"` and every row has a cell beyond 1e-9. |
| `MatrixEngine.TrimIdempotent` | matrix.go:289-337 | Trimming a trimmed tableau changes nothing. |
| `MatrixEngine.TrimKeepsMeaning` | matrix.go:289-337 | When `"0"` has the value 0, every row equation that held before trimming holds after it. |
| `MatrixEngine.TrimShrinks` | matrix.go:169 | Trimming changes the tableau exactly when it changes the row count or the row width, the test solveSteps uses. |
| `MatrixEngine.RemoveZeroColumnsAndRows` | matrix.go:289-337 | The result is the input when it has no rows or no columns. Otherwise it keeps the rows nonzero on a kept column and the columns not labelled `"0"`, both in order, with their labels. |
| `MatrixEngine.KeepColumns` | matrix.go:297-302 | The indices of the columns not labelled `"0"`, in increasing order. |
| `MatrixEngine.KeepRows` | matrix.go:304-316 | The indices of the rows with a cell beyond 1e-9 in a kept column, in increasing order. |
| `MatrixEngine.Submatrix` | matrix.go:318-324 | Row a of the result is row keepRows[a] restricted to the kept columns. |
| `MatrixEngine.Pick` | matrix.go:326-334 | The labels at the kept positions, in order. |
| `MatrixEngine.SwapRowsKeepsMeaning` | matrix.go:125-126 | Interchanging two rows together with their labels keeps exactly the same solutions. |
| `MatrixEngine.SwapRowsTwice` | matrix.go:125-126 | Interchanging the same two rows twice restores the tableau. |
| `MatrixEngine.RowWithPivot` | matrix.go:121-130 | The first row at or after k that has an allowed column, or −1 when none does. |
| `MatrixEngine.Choose` | matrix.go:119-134 | No pivot exactly when no row from i−1 on has an allowed column. Otherwise the tableau is left alone when row i−1 has an allowed column, and else row i−1 and the first later row that has one are interchanged together with their labels. The chosen column is the first allowed one of row i−1 of that tableau, and the column labels are unchanged. |
| `MatrixEngine.ChooseKeepsMeaning` | matrix.go:119-130 | The tableau a stage pivots on has exactly the solutions of the tableau the stage starts from. |
| `MatrixEngine.FindPivot` | matrix.go:119-134 | Finds a pivot exactly when one exists. It returns the tableau after any interchange and the column, as Choose does, and leaves the tableau alone when it finds none. |
| `MatrixEngine.RunStages` | matrix.go:115-157 | The recorded steps and the working tableau are those of stages 1 .. MatrixRank(a) from the input with no used columns. |
| `MatrixEngine.Rounds` | matrix.go:118-157 | At most one step per stage. Step k is stage i+k on row i−1+k, with a pivot value beyond 1e-9 and a variable column that no other stage uses. The steps form a chain: the first is the stage taken from the input (the pivot search, then the rounded exchange of the chosen tableau on row i−1 and the chosen column), and the rest are the later stages taken from its tableau with its column spent. The stages end on the last step's tableau, or on the input when there is no step. The run stops only when the next stage is beyond the rank, or when no row from that stage's row on has a column allowed once the run's pivot columns are spent. |
| `MatrixEngine.StageChainAt` | matrix.go:118-157 | Step k of such a chain is stage i+k taken from the tableau of step k−1 (the input for k = 0), with the columns of steps 0 .. k−1 spent. |
| `MatrixEngine.SolveSteps` | matrix.go:109-181 | The stages, the check, the trim, the check again, and the final step; equal to `Solve`. |
| `MatrixEngine.SolveErrorIsContradiction` | matrix.go:159-167 | An error is reported exactly when the tableau the stages end on, or its trimmed form, has a `"0"` row reading 0 = c, and the error carries that c. On error the steps returned are exactly those of the stages. |
| `MatrixEngine.SolveSuccess` | matrix.go:163-180 | On success the steps are the stages' steps, plus one step without a pivot exactly when trimming changed the tableau. That step holds the trimmed tableau, which has no `"0"` column, no zero row and no contradiction. |
| `MatrixEngine.ResolveTakesStep` | matrix.go:109-181 | For 1 + x1 − 2·x2 = 0, one stage and a trim give the final tableau [[−1, 2]] with x1 on its row and columns 1, x2. Solving that tableau again takes at least one more step. |
| `MatrixEngine.InconsistentExample` | matrix.go:109-167 | The system 5 = 0, 3 = 0 offers no pivot and reports 0 = 5 with no steps. |
| `MatrixEngine.SolvedExample` | matrix.go:109-287 | The equation 2 + 4·x1 = 0 gives one stage step ([[−0.5, 0.25]]), a final step ([[−0.5]]) and the solution x1 = −0.5. |
| `MatrixEngine.GetEquations` | matrix.go:201-277 | One equation per variable-labelled row below the rank, in row order, then one free equation per free column, in column order. |
| `MatrixEngine.CollectBasic` | matrix.go:204-209 | The set of row labels that start with "x". |
| `MatrixEngine.CollectFree` | matrix.go:211-216 | The column labels that start with "x", name no row and are not "1", in column order. |
| `MatrixEngine.BasicEquations` | matrix.go:218-269 | For each variable row below the rank: its label, its column-0 value and its terms. |
| `MatrixEngine.RowTerms` | matrix.go:227-248 | The terms of the columns from 1 on that are labelled by a free variable and whose coefficient exceeds 1e-9, in column order. |
| `MatrixEngine.FreeEquations` | matrix.go:270-274 | One free equation per collected free variable, in order. |
| `MatrixEngine.EquationsCoverRows` | matrix.go:218-269 | Every variable-labelled row below the rank has its equation among the results. |
| `MatrixEngine.EquationsForBasic` | matrix.go:218-223 | Every equation with a right-hand side is for a variable that labels a row. |
| `MatrixEngine.EquationsFree` | matrix.go:211-216 | A free equation for v appears exactly when v labels a column, starts with "x" and labels no row. |
| `MatrixEngine.EquationsTermsAreFree` | matrix.go:227-248 | Every term names a variable that has its own free equation, and its coefficient exceeds 1e-9 in magnitude. |
| `MatrixEngine.RowEquationHolds` | matrix.go:223-247 | Suppose a row holds, column 0 is the constant 1, and every column the terms leave out has a zero coefficient or value. Then the row's variable equals the constant plus the sum of its terms. |
| `MatrixEngine.GetSolutionVector` | matrix.go:279-287 | Nothing exactly for an empty trace. Otherwise the equations of the last step, reading all its rows. |

## Left out

- `cloneMatrix` and `cloneSlice` (`Zero.go:67-77`, `matrix.go:36-46`) have no member: matrices and label lists are Dafny values, which cannot alias, so every copy is the value itself.
- The HTTP handlers, the templates, `main`, `PageData` and the global state are outside the core.
- `resetState` and `init` fill the matrix with random integers, and randomness is not modelled.
- Floating point: matrices hold exact reals. There is no overflow, NaN, infinity or rounding error in the arithmetic; only the explicit three-decimal rounding of `matrix.go:102` is modelled.
- Step descriptions and error messages are not text. A step carries a `Desc` value with the numbers the Russian text shows: for Zero.go the round, the pivot position and value and the two labels; for matrix.go the stage, the pivot value and its 1-based position, or the final-matrix marker. Errors are datatype values (`BadCoordinates`, `ZeroPivot`, `AtRound`, `Inconsistent`) carrying the numbers of their messages. The `%.2f` and `%.3f` formatting is not modelled.
- `MatrixEngine.GetEquations` returns structured equations, not strings. The renaming of x to t, the `+`/`−` signs of the terms, the `%.3f` formatting, leaving out a constant below 1e-9 when there are terms, and the clean-up of a leading sign are presentation, so they are not modelled.
- `ZeroEngine.GetSolutionVector` returns label and value pairs instead of `"%s = %.3f"` strings.
- `MatrixEngine.JordanovaException` states the rounded cells to within 0.0005 of the exact exchange, but how far the rounding moves the meaning of a tableau over many stages is not bounded. The involution and meaning lemmas are about the unrounded exchange.
- Ragged matrices are not modelled. Every operation requires a rectangular matrix with one label per row and per column.
- The preconditions are the inputs on which the Go code panics:
  - an empty matrix in either `solveSteps`;
  - a variable-labelled row without a constant cell when reading a solution;
  - a row labelled `"0"` without cells in `checkFinalZeroEquations`;
  - a rank beyond the row count in `getEguations`.
  - a pivot position outside the matrix in `JordanovaException`, which reads `arr[i_ae][j_ae]` before anything else (`matrix.go:78`).

=== FILE: grid.dfy ===
/**
  Values shared by both elimination engines: the tableau (a matrix of reals with a label
  per row and per column), the trace step, the label tests, the tolerances, the selection
  of indices by a mask, and the meaning of a tableau as a system of linear equations.
*/
module Grid {

  datatype Option<+T> = None | Some(value: T)

  datatype Result<+T, +E> = Ok(value: T) | Err(error: E)

  /** Rows of reals; the engines only build rectangular ones. */
  type Matrix = seq<seq<real>>

  /** A row or column symbol: "0", "1" or a variable name such as "x3". */
  type Label = string

  /** Tolerance of every zero test on cell values (1e-9). */
  const Eps: real := 0.000000001

  /** Tolerance under which matrix.go refuses to pivot at all (1e-12). */
  const PivotEps: real := 0.000000000001

  function Abs(x: real): real
  {
    if x < 0.0 then -x else x
  }

  function Min(a: int, b: int): int
  {
    if a <= b then a else b
  }

  /** `strings.HasPrefix(l, "x")`: the label names a variable. */
  predicate IsVariable(l: Label)
  {
    |l| > 0 && l[0] == 'x'
  }

  /** Every row of `m` has exactly `cols` cells. */
  predicate IsRect(m: Matrix, cols: nat)
  {
    forall i :: 0 <= i < |m| ==> |m[i]| == cols
  }

  /** A matrix together with its row labels and column labels. */
  datatype Tableau = Tableau(matrix: Matrix, rowLabels: seq<Label>, colLabels: seq<Label>)
  {
    /** One label per row, one label per column, all rows as wide as the column labels. */
    predicate Valid()
    {
      |rowLabels| == |matrix| && IsRect(matrix, |colLabels|)
    }
  }

  /** The structured content of a step's description text. */
  datatype Desc =
    | Round(number: int, pivotRow: int, pivotCol: int, pivotValue: real, rowLabel: Label, colLabel: Label)
    | Stage(number: int, pivotValue: real, row: int, col: int)
    | FinalMatrix

  /** One snapshot of the trace; pivotRow = pivotCol = -1 marks a step without a pivot. */
  datatype Step = Step(desc: Desc, matrix: Matrix, rowLabels: seq<Label>, colLabels: seq<Label>,
                       pivotRow: int, pivotCol: int)
  {
    function State(): Tableau
    {
      Tableau(matrix, rowLabels, colLabels)
    }
  }

  /** The tableau a trace step starts from: the input for the first, else the previous step's. */
  function Before(t: Tableau, steps: seq<Step>, s: nat): Tableau
    requires s <= |steps|
  {
    if s == 0 then t else steps[s - 1].State()
  }

  /** The indices below `n` at which `mask` holds, in increasing order. */
  function Positions(mask: seq<bool>, n: nat): (ps: seq<nat>)
    requires n <= |mask|
    ensures forall k :: 0 <= k < |ps| ==> ps[k] < n && mask[ps[k]]
    ensures forall k, l :: 0 <= k < l < |ps| ==> ps[k] < ps[l]
    ensures forall i :: 0 <= i < n && mask[i] ==> i in ps
    ensures |ps| <= n
  {
    if n == 0 then [] else Positions(mask, n - 1) + (if mask[n - 1] then [n - 1] else [])
  }

  /** With a mask that holds everywhere below `n`, the positions are 0, 1, ..., n-1. */
  lemma {:induction false} PositionsOfAll(mask: seq<bool>, n: nat)
    requires n <= |mask|
    requires forall i :: 0 <= i < n ==> mask[i]
    ensures |Positions(mask, n)| == n
    ensures forall k :: 0 <= k < n ==> Positions(mask, n)[k] == k
  {
    if n > 0 {
      PositionsOfAll(mask, n - 1);
    }
  }

  /** When every index below `n` is selected, the positions are 0, 1, ..., n-1. */
  lemma {:induction false} PositionsFull(mask: seq<bool>, n: nat)
    requires n <= |mask| && |Positions(mask, n)| == n
    ensures forall k :: 0 <= k < n ==> Positions(mask, n)[k] == k
  {
    if n > 0 {
      assert mask[n - 1] by {
        if !mask[n - 1] {
          PositionsSkip(mask, n);
        }
      }
      PositionsTake(mask, n);
      PositionsFull(mask, n - 1);
      forall k | 0 <= k < n - 1
        ensures Positions(mask, n)[k] == k
      {
        assert Positions(mask, n)[k] == Positions(mask, n - 1)[k];
      }
    }
  }

  /** A position the mask rejects adds nothing. */
  lemma PositionsSkip(mask: seq<bool>, n: nat)
    requires 0 < n <= |mask| && !mask[n - 1]
    ensures Positions(mask, n) == Positions(mask, n - 1)
  {
    assert Positions(mask, n - 1) + [] == Positions(mask, n - 1);
  }

  /** A position the mask accepts comes last. */
  lemma PositionsTake(mask: seq<bool>, n: nat)
    requires 0 < n <= |mask| && mask[n - 1]
    ensures Positions(mask, n) == Positions(mask, n - 1) + [n - 1]
  {
  }

  /** The elements of `s` at the positions `ps`, in that order. */
  function Gather<T>(s: seq<T>, ps: seq<nat>): seq<T>
    requires forall k :: 0 <= k < |ps| ==> ps[k] < |s|
  {
    seq(|ps|, k requires 0 <= k < |ps| => s[ps[k]])
  }

  lemma GatherSnoc<T>(s: seq<T>, ps: seq<nat>, x: nat)
    requires forall k :: 0 <= k < |ps| ==> ps[k] < |s|
    requires x < |s|
    ensures Gather(s, ps + [x]) == Gather(s, ps) + [s[x]]
  {
  }

  /** Rows whose label names a variable. */
  function VariableRows(rowLabels: seq<Label>): seq<bool>
  {
    seq(|rowLabels|, i requires 0 <= i < |rowLabels| => IsVariable(rowLabels[i]))
  }

  // ---------------------------------------------------------------------------------
  // Meaning of a tableau: row i states  value(rowLabels[i]) = sum_j m[i][j] * value(colLabels[j]).
  // ---------------------------------------------------------------------------------

  function Dot(a: seq<real>, x: seq<real>): real
    requires |a| == |x|
  {
    if |a| == 0 then 0.0 else a[0] * x[0] + Dot(a[1..], x[1..])
  }

  /** The values an assignment gives to a list of labels. */
  function Values(labels: seq<Label>, env: Label -> real): (v: seq<real>)
    ensures |v| == |labels|
  {
    seq(|labels|, j requires 0 <= j < |labels| => env(labels[j]))
  }

  /** The assignment `env` satisfies every row equation of `t`. */
  ghost predicate Holds(t: Tableau, env: Label -> real)
    requires t.Valid()
  {
    forall i :: 0 <= i < |t.matrix| ==> env(t.rowLabels[i]) == Dot(t.matrix[i], Values(t.colLabels, env))
  }

  /** Changing one coefficient changes the dot product by that coefficient's change. */
  lemma {:induction false} DotUpdateLeft(a: seq<real>, x: seq<real>, q: nat, c: real)
    requires |a| == |x| && q < |a|
    ensures Dot(a[q := c], x) == Dot(a, x) + (c - a[q]) * x[q]
  {
    if q > 0 {
      DotUpdateLeft(a[1..], x[1..], q - 1, c);
      assert a[q := c][1..] == a[1..][q - 1 := c];
    } else {
      assert a[q := c][1..] == a[1..];
    }
  }

  /** Changing one value changes the dot product by its coefficient times the change. */
  lemma {:induction false} DotUpdateRight(a: seq<real>, x: seq<real>, q: nat, d: real)
    requires |a| == |x| && q < |a|
    ensures Dot(a, x[q := d]) == Dot(a, x) + a[q] * d - a[q] * x[q]
  {
    if q > 0 {
      DotUpdateRight(a[1..], x[1..], q - 1, d);
      assert x[q := d][1..] == x[1..][q - 1 := d];
    } else {
      assert x[q := d][1..] == x[1..];
    }
  }

  /** The dot product is linear in the coefficient row. */
  lemma {:induction false} DotLinear(r: seq<real>, a: seq<real>, b: seq<real>, x: seq<real>, s: real, u: real)
    requires |r| == |a| == |b| == |x|
    requires forall j :: 0 <= j < |r| ==> r[j] == s * a[j] + u * b[j]
    ensures Dot(r, x) == s * Dot(a, x) + u * Dot(b, x)
  {
    if |r| > 0 {
      DotLinear(r[1..], a[1..], b[1..], x[1..], s, u);
      LinearCons(r[0], a[0], b[0], x[0], s, u, Dot(r[1..], x[1..]), Dot(a[1..], x[1..]), Dot(b[1..], x[1..]));
    }
  }

  /** One more term of a linear combination of two dot products. */
  lemma LinearCons(c: real, a0: real, b0: real, x0: real, s: real, u: real, dr: real, da: real, db: real)
    requires c == s * a0 + u * b0 && dr == s * da + u * db
    ensures c * x0 + dr == s * (a0 * x0 + da) + u * (b0 * x0 + db)
  {
    calc {
      c * x0 + dr;
      (s * a0 + u * b0) * x0 + s * da + u * db;
      s * (a0 * x0) + u * (b0 * x0) + s * da + u * db;
    }
  }

  /** Linear except at column q: the exceptional coefficient adds its own correction. */
  lemma {:induction false} DotLinearExcept(r: seq<real>, a: seq<real>, b: seq<real>, x: seq<real>, s: real, u: real, q: nat)
    requires |r| == |a| == |b| == |x| && q < |r|
    requires forall j :: 0 <= j < |r| && j != q ==> r[j] == s * a[j] + u * b[j]
    ensures Dot(r, x) == s * Dot(a, x) + u * Dot(b, x) + (r[q] - s * a[q] - u * b[q]) * x[q]
  {
    var c := s * a[q] + u * b[q];
    var r0 := r[q := c];
    forall j | 0 <= j < |r0|
      ensures r0[j] == s * a[j] + u * b[j]
    {
      if j == q {
        assert r0[j] == c;
      } else {
        assert r0[j] == r[j];
      }
    }
    DotLinear(r0, a, b, x, s, u);
    DotUpdateLeft(r0, x, q, r[q]);
    assert r0[q := r[q]] == r;
    var delta := r[q] - c;
    assert Dot(r, x) == Dot(r0, x) + delta * x[q];
  }

  /**
    The pivot row of an exchange on (p, q) (1/v at q, -a/v elsewhere) states the old column
    variable in terms of the old row variable and the other columns.
  */
  lemma PivotRowMeaning(ap: seq<real>, x: seq<real>, q: nat, r: seq<real>)
    requires |ap| == |x| == |r| && q < |ap| && ap[q] != 0.0
    requires r[q] == 1.0 / ap[q]
    requires forall j :: 0 <= j < |r| && j != q ==> r[j] == -ap[j] / ap[q]
    ensures Dot(r, x[q := Dot(ap, x)]) == x[q]
  {
    PivotRowCoefficients(ap, q, r);
    PivotRowScaled(ap, x, q, r, 1.0 / ap[q]);
  }

  /** Off the pivot column, the pivot row is -w times the old one, where w = 1/v. */
  lemma PivotRowCoefficients(ap: seq<real>, q: nat, r: seq<real>)
    requires |ap| == |r| && q < |ap| && ap[q] != 0.0
    requires forall j :: 0 <= j < |r| && j != q ==> r[j] == -ap[j] / ap[q]
    ensures forall j :: 0 <= j < |r| && j != q ==> r[j] == (-(1.0 / ap[q])) * ap[j]
    ensures (1.0 / ap[q]) * ap[q] == 1.0
  {
    forall j | 0 <= j < |r| && j != q
      ensures r[j] == (-(1.0 / ap[q])) * ap[j]
    {
      NegDivIsScale(ap[j], ap[q]);
    }
  }

  /** -a / v as a multiple of a. */
  lemma NegDivIsScale(a: real, v: real)
    requires v != 0.0
    ensures -a / v == (-(1.0 / v)) * a
  {
  }

  /** PivotRowMeaning with the reciprocal w of the pivot named. */
  lemma PivotRowScaled(ap: seq<real>, x: seq<real>, q: nat, r: seq<real>, w: real)
    requires |ap| == |x| == |r| && q < |ap|
    requires w * ap[q] == 1.0 && r[q] == w
    requires forall j :: 0 <= j < |r| && j != q ==> r[j] == (-w) * ap[j]
    ensures Dot(r, x[q := Dot(ap, x)]) == x[q]
  {
    var s := -w;
    DotScaleExcept(r, ap, x, s, q);
    DotUpdateRight(r, x, q, Dot(ap, x));
    PivotRowAlgebra(ap[q], Dot(ap, x), x[q], w, s, r[q], Dot(r, x), Dot(r, x[q := Dot(ap, x)]));
  }

  /** The scalar step of PivotRowScaled: y is the old row's value, xq the old column's. */
  lemma PivotRowAlgebra(v: real, y: real, xq: real, w: real, s: real, rq: real, before: real, after: real)
    requires w * v == 1.0 && s == -w && rq == w
    requires before == rq * xq + s * y - s * (v * xq)
    requires after == before + rq * y - rq * xq
    ensures after == xq
  {
    calc {
      s * (v * xq);
      (-w) * (v * xq);
      -((w * v) * xq);
      -xq;
    }
  }

  /** A row that is s times another except at column q. */
  lemma {:induction false} DotScaleExcept(r: seq<real>, a: seq<real>, x: seq<real>, s: real, q: nat)
    requires |r| == |a| == |x| && q < |r|
    requires forall j :: 0 <= j < |r| && j != q ==> r[j] == s * a[j]
    ensures Dot(r, x) == r[q] * x[q] + s * Dot(a, x) - s * (a[q] * x[q])
  {
    if q == 0 {
      DotScale(r[1..], a[1..], x[1..], s);
      ScaleExceptHead(r[0] * x[0], s, a[0] * x[0], Dot(a[1..], x[1..]));
    } else {
      DotScaleExcept(r[1..], a[1..], x[1..], s, q - 1);
      assert r[1..][q - 1] == r[q] && a[1..][q - 1] == a[q] && x[1..][q - 1] == x[q];
      ScaleExceptCons(r[0], a[0], x[0], s, r[q] * x[q], a[q] * x[q], Dot(r[1..], x[1..]), Dot(a[1..], x[1..]));
    }
  }

  /** The scalar step of DotScaleExcept at the exceptional column. */
  lemma ScaleExceptHead(c: real, s: real, e: real, d: real)
    ensures c + s * d == c + s * (e + d) - s * e
  {
  }

  /** The scalar step of DotScaleExcept before the exceptional column. */
  lemma ScaleExceptCons(r0: real, a0: real, x0: real, s: real, rx: real, ax: real, dr: real, da: real)
    requires r0 == s * a0 && dr == rx + s * da - s * ax
    ensures r0 * x0 + dr == rx + s * (a0 * x0 + da) - s * ax
  {
    assert r0 * x0 == s * (a0 * x0);
  }

  /** A row that is s times another. */
  lemma {:induction false} DotScale(r: seq<real>, a: seq<real>, x: seq<real>, s: real)
    requires |r| == |a| == |x|
    requires forall j :: 0 <= j < |r| ==> r[j] == s * a[j]
    ensures Dot(r, x) == s * Dot(a, x)
  {
    if |r| > 0 {
      DotScale(r[1..], a[1..], x[1..], s);
      ScaleCons(r[0], a[0], x[0], s, Dot(r[1..], x[1..]), Dot(a[1..], x[1..]));
    }
  }

  /** One more term of a scaled dot product. */
  lemma ScaleCons(c: real, a0: real, x0: real, s: real, dr: real, da: real)
    requires c == s * a0 && dr == s * da
    ensures c * x0 + dr == s * (a0 * x0 + da)
  {
  }

  /** The rectangle rule: the cell a, with b in its pivot column and c in its pivot row, pivot v. */
  function Rectangle(a: real, b: real, c: real, v: real): real
    requires v != 0.0
  {
    a - (b * c) / v
  }

  /** The rectangle-rule row is linear in the old row and the pivot row. */
  lemma {:induction false} RectangleRowDot(ai: seq<real>, ap: seq<real>, x: seq<real>, q: nat, r: seq<real>)
    requires |ai| == |ap| == |x| == |r| && q < |ap| && ap[q] != 0.0
    requires forall j :: 0 <= j < |r| && j != q ==> r[j] == Rectangle(ai[j], ai[q], ap[j], ap[q])
    ensures Dot(r, x) == Dot(ai, x) - (ai[q] / ap[q]) * Dot(ap, x) + r[q] * x[q]
  {
    var v := ap[q];
    var u := -(ai[q] / v);
    forall j | 0 <= j < |r| && j != q
      ensures r[j] == 1.0 * ai[j] + u * ap[j]
    {
      assert (ai[q] * ap[j]) / v == (ai[q] / v) * ap[j];
    }
    DotLinearExcept(r, ai, ap, x, 1.0, u, q);
    assert u * v == -ai[q];
  }

  /**
    A row i other than the pivot row, with the rectangle rule a_ij - a_iq * a_pj / v off the
    pivot column and any value c = r[q] in it: after the exchange it is off by (c - a_iq / v)
    times the value of the old pivot-row variable.
  */
  lemma {:induction false} OtherRowMeaning(ai: seq<real>, ap: seq<real>, x: seq<real>, q: nat, r: seq<real>)
    requires |ai| == |ap| == |x| == |r| && q < |ap| && ap[q] != 0.0
    requires forall j :: 0 <= j < |r| && j != q ==> r[j] == Rectangle(ai[j], ai[q], ap[j], ap[q])
    ensures Dot(r, x[q := Dot(ap, x)]) == Dot(ai, x) + r[q] * Dot(ap, x) - (ai[q] / ap[q]) * Dot(ap, x)
  {
    RectangleRowDot(ai, ap, x, q, r);
    DotUpdateRight(r, x, q, Dot(ap, x));
  }

  /** The dot product splits over concatenation. */
  lemma {:induction false} DotAppend(a: seq<real>, b: seq<real>, x: seq<real>, y: seq<real>)
    requires |a| == |x| && |b| == |y|
    ensures Dot(a + b, x + y) == Dot(a, x) + Dot(b, y)
  {
    if |a| > 0 {
      DotAppend(a[1..], b, x[1..], y);
      assert (a + b)[1..] == a[1..] + b && (x + y)[1..] == x[1..] + y;
    } else {
      assert a + b == b && x + y == y;
    }
  }

  /**
    Leaving out the positions whose value is zero does not change the dot product: over the
    first n positions, the dot product of the selected coefficients and values is the full one.
  */
  lemma {:induction false} DotGather(a: seq<real>, x: seq<real>, mask: seq<bool>, n: nat)
    requires |a| == |x| == |mask| && n <= |a|
    requires forall j :: 0 <= j < n && !mask[j] ==> a[j] == 0.0 || x[j] == 0.0
    ensures Dot(Gather(a, Positions(mask, n)), Gather(x, Positions(mask, n))) == Dot(a[..n], x[..n])
  {
    if n > 0 {
      DotGather(a, x, mask, n - 1);
      if mask[n - 1] {
        DotGatherTake(a, x, mask, n);
      } else {
        DotGatherSkip(a, x, mask, n);
      }
    }
  }

  /** DotGather over whole sequences. */
  lemma DotGatherAll(a: seq<real>, x: seq<real>, mask: seq<bool>)
    requires |a| == |x| == |mask|
    requires forall j :: 0 <= j < |a| && !mask[j] ==> a[j] == 0.0 || x[j] == 0.0
    ensures Dot(Gather(a, Positions(mask, |a|)), Gather(x, Positions(mask, |a|))) == Dot(a, x)
  {
    DotGather(a, x, mask, |a|);
    WholePrefix(a);
    WholePrefix(x);
  }

  /** The prefix as long as the sequence is the sequence. */
  lemma WholePrefix<T>(s: seq<T>)
    ensures s[..|s|] == s
  {
  }

  /** The last of the first n cells, as a separate term. */
  lemma DotPrefixSnoc(a: seq<real>, x: seq<real>, n: nat)
    requires |a| == |x| && 0 < n <= |a|
    ensures Dot(a[..n], x[..n]) == Dot(a[..n - 1], x[..n - 1]) + Dot([a[n - 1]], [x[n - 1]])
  {
    assert a[..n] == a[..n - 1] + [a[n - 1]] && x[..n] == x[..n - 1] + [x[n - 1]];
    DotAppend(a[..n - 1], [a[n - 1]], x[..n - 1], [x[n - 1]]);
  }

  /** DotGather's step at a selected position. */
  lemma DotGatherTake(a: seq<real>, x: seq<real>, mask: seq<bool>, n: nat)
    requires |a| == |x| == |mask| && 0 < n <= |a| && mask[n - 1]
    requires Dot(Gather(a, Positions(mask, n - 1)), Gather(x, Positions(mask, n - 1))) == Dot(a[..n - 1], x[..n - 1])
    ensures Dot(Gather(a, Positions(mask, n)), Gather(x, Positions(mask, n))) == Dot(a[..n], x[..n])
  {
    var ps := Positions(mask, n - 1);
    PositionsTake(mask, n);
    GatherSnoc(a, ps, n - 1);
    GatherSnoc(x, ps, n - 1);
    DotAppend(Gather(a, ps), [a[n - 1]], Gather(x, ps), [x[n - 1]]);
    DotPrefixSnoc(a, x, n);
  }

  /** DotGather's step at a rejected position, whose coefficient or value is zero. */
  lemma DotGatherSkip(a: seq<real>, x: seq<real>, mask: seq<bool>, n: nat)
    requires |a| == |x| == |mask| && 0 < n <= |a| && !mask[n - 1] && (a[n - 1] == 0.0 || x[n - 1] == 0.0)
    requires Dot(Gather(a, Positions(mask, n - 1)), Gather(x, Positions(mask, n - 1))) == Dot(a[..n - 1], x[..n - 1])
    ensures Dot(Gather(a, Positions(mask, n)), Gather(x, Positions(mask, n))) == Dot(a[..n], x[..n])
  {
    PositionsSkip(mask, n);
    DotPrefixSnoc(a, x, n);
    assert Dot([a[n - 1]], [x[n - 1]]) == a[n - 1] * x[n - 1] + Dot([], []);
  }

  /** Selecting the values of selected labels is selecting among the values. */
  lemma GatherValues(labels: seq<Label>, ps: seq<nat>, env: Label -> real)
    requires forall k :: 0 <= k < |ps| ==> ps[k] < |labels|
    ensures Values(Gather(labels, ps), env) == Gather(Values(labels, env), ps)
  {
  }
}

=== FILE: matrix_engine.dfy ===
/**
  The elimination engine of matrix.go: stage i (1-based, up to the rank bound) looks for a
  usable pivot column in row i-1, interchanging it with a later row when it has none,
  exchanges with rounding to three decimals, then checks for an inconsistent "0 = c"
  row, drops the zero columns and rows, checks again, and reads the general solution off
  the last tableau.
*/
module MatrixEngine {
  import opened Grid

  /** solveSteps' only error: a row labelled "0" whose only nonzero cell is the constant. */
  datatype SolveError = Inconsistent(residual: real)

  /** The steps recorded so far and the error that ended the run, if any. */
  datatype Solved = Solved(steps: seq<Step>, error: Option<SolveError>)

  /** One term `coef * variable` on the right-hand side of a basic variable's equation. */
  datatype Term = Term(variable: Label, coef: real)

  /** One line of the general solution. */
  datatype Equation =
    | Basic(variable: Label, constant: real, terms: seq<Term>)  // x = constant + sum of terms
    | Free(variable: Label)                                     // x is a free parameter

  // ---------------------------------------------------------------------------------
  // The number of stages and the choice of a pivot column.
  // ---------------------------------------------------------------------------------

  /** MatrixRank: 0 for no rows, else the smaller of the row count and the variable count. */
  function MatrixRank(a: Matrix): (r: int)
    ensures |a| == 0 ==> r == 0
    ensures |a| > 0 ==> r <= |a| && r <= |a[0]| - 1 && (r == |a| || r == |a[0]| - 1)
  {
    if |a| == 0 then 0 else Min(|a|, |a[0]| - 1)
  }

  /** Column j (never the constant column 0) is unused and holds a value beyond 1e-9. */
  predicate Allowed(row: seq<real>, used: seq<int>, j: int)
  {
    1 <= j < |row| && j !in used && Abs(row[j]) > Eps
  }

  /** The first allowed column at or after `from`, or -1 when there is none. */
  function FirstAllowed(row: seq<real>, used: seq<int>, from: nat): (j: int)
    requires from >= 1
    ensures j == -1 || (from <= j && Allowed(row, used, j))
    ensures forall c :: from <= c && (j == -1 || c < j) ==> !Allowed(row, used, c)
    decreases |row| - from
  {
    if from >= |row| then -1
    else if Allowed(row, used, from) then from
    else FirstAllowed(row, used, from + 1)
  }

  /**
    allowEntry: the lowest column index i >= 1 that is not in `used` and whose value exceeds
    1e-9 in absolute value, or -1.
  */
  method AllowEntry(arr: seq<real>, used: seq<int>) returns (j: int)
    ensures j == FirstAllowed(arr, used, 1)
    ensures j == -1 <==> forall c :: 1 <= c < |arr| ==> !Allowed(arr, used, c)
  {
    var i := 1;
    while i < |arr|
      invariant 1 <= i
      invariant FirstAllowed(arr, used, 1) == FirstAllowed(arr, used, i)
    {
      var skipped := false;
      var k := 0;
      while k < |used|
        invariant 0 <= k <= |used|
        invariant !skipped
        invariant forall l :: 0 <= l < k ==> used[l] != i
      {
        if i == used[k] {
          skipped := true;
          break;
        }
        k := k + 1;
      }
      assert skipped <==> i in used;
      if !skipped && Abs(arr[i]) > Eps {
        return i;
      }
      i := i + 1;
    }
    return -1;
  }

  // ---------------------------------------------------------------------------------
  // Rounding to three decimals.
  // ---------------------------------------------------------------------------------

  /** math.Round: the nearest integer, halves rounded away from zero. */
  function RoundHalfAway(x: real): (n: int)
    ensures x - 0.5 <= n as real <= x + 0.5
    ensures x >= 0.0 ==> n as real > x - 0.5
    ensures x < 0.0 ==> n as real < x + 0.5
  {
    if x >= 0.0 then (x + 0.5).Floor else -((-x + 0.5).Floor)
  }

  /** math.Round(x * 1000) / 1000. */
  function Round3(x: real): (r: real)
    ensures Abs(r - x) <= 0.0005
  {
    RoundHalfAway(x * 1000.0) as real / 1000.0
  }

  /** An integer rounds to itself. */
  lemma RoundInteger(n: int)
    ensures RoundHalfAway(n as real) == n
  {
    if n >= 0 {
      assert (n as real + 0.5).Floor == n;
    } else {
      assert (-(n as real) + 0.5).Floor == -n;
    }
  }

  /** Rounding to three decimals is idempotent: a rounded cell is left as it is. */
  lemma {:induction false} Round3Idempotent(x: real)
    ensures Round3(Round3(x)) == Round3(x)
  {
    var n := RoundHalfAway(x * 1000.0);
    assert Round3(x) * 1000.0 == n as real;
    RoundInteger(n);
  }

  // ---------------------------------------------------------------------------------
  // The modified Jordan exception.
  // ---------------------------------------------------------------------------------

  /**
    The unrounded cell (i, j) after exchanging on (p, q) with pivot value v: 1/v at the
    pivot, -a/v in the pivot row, +a/v in the pivot column, (a*v - a_iq*a_pj)/v elsewhere.
  */
  function ExactCell(m: Matrix, p: nat, q: nat, i: nat, j: nat): real
    requires p < |m| && i < |m| && q < |m[p]| && j < |m[p]| && q < |m[i]| && j < |m[i]|
    requires m[p][q] != 0.0
  {
    var v := m[p][q];
    if i == p && j == q then 1.0 / v
    else if i == p then -m[p][j] / v
    else if j == q then m[i][q] / v
    else (m[i][j] * v - m[i][q] * m[p][j]) / v
  }

  /** The unrounded exchange of a whole tableau on (p, q). */
  function ExactExchange(t: Tableau, p: nat, q: nat): (r: Tableau)
    requires t.Valid() && p < |t.matrix| && q < |t.colLabels| && t.matrix[p][q] != 0.0
    ensures r.Valid() && |r.matrix| == |t.matrix| && |r.colLabels| == |t.colLabels|
  {
    var m := t.matrix;
    Tableau(seq(|m|, i requires 0 <= i < |m| =>
              seq(|t.colLabels|, j requires 0 <= j < |t.colLabels| => ExactCell(m, p, q, i, j))),
            t.rowLabels[p := t.colLabels[q]],
            t.colLabels[q := t.rowLabels[p]])
  }

  /**
    What JordanovaException returns: the input itself when the pivot is below 1e-12 in
    absolute value, else the exchanged tableau with every cell rounded to three decimals.
  */
  function Exchange(t: Tableau, p: nat, q: nat): (r: Tableau)
    requires t.Valid() && p < |t.matrix| && q < |t.colLabels|
    ensures r.Valid() && |r.matrix| == |t.matrix| && |r.colLabels| == |t.colLabels|
  {
    if Abs(t.matrix[p][q]) < PivotEps then t
    else
      var e := ExactExchange(t, p, q);
      Tableau(seq(|e.matrix|, i requires 0 <= i < |e.matrix| =>
                seq(|e.colLabels|, j requires 0 <= j < |e.colLabels| => Round3(e.matrix[i][j]))),
              e.rowLabels, e.colLabels)
  }

  /**
    JordanovaException: on a pivot of at least 1e-12 the row symbol of p and the column symbol
    of q trade places and every cell is the exact exchange rounded to three decimals, so it
    is within 0.0005 of it; otherwise nothing changes.
  */
  method JordanovaException(arr: Matrix, rowLabels: seq<Label>, colLabels: seq<Label>, iAe: nat, jAe: nat)
    returns (r: Tableau)
    requires Tableau(arr, rowLabels, colLabels).Valid() && iAe < |arr| && jAe < |colLabels|
    ensures r == Exchange(Tableau(arr, rowLabels, colLabels), iAe, jAe)
    ensures Abs(arr[iAe][jAe]) < PivotEps ==> r == Tableau(arr, rowLabels, colLabels)
    ensures Abs(arr[iAe][jAe]) >= PivotEps ==>
      && r.rowLabels == rowLabels[iAe := colLabels[jAe]]
      && r.colLabels == colLabels[jAe := rowLabels[iAe]]
      && |r.matrix| == |arr|
      && forall i, j :: 0 <= i < |arr| && 0 <= j < |colLabels| ==>
           |r.matrix[i]| == |colLabels| && Abs(r.matrix[i][j] - ExactCell(arr, iAe, jAe, i, j)) <= 0.0005
  {
    var allowEntry := arr[iAe][jAe];
    if Abs(allowEntry) < PivotEps {
      return Tableau(arr, rowLabels, colLabels);
    }
    var newRowLabels, newColLabels := rowLabels, colLabels;
    newRowLabels, newColLabels := newRowLabels[iAe := colLabels[jAe]], newColLabels[jAe := rowLabels[iAe]];
    var result: Matrix := [];
    for i := 0 to |arr|
      invariant |result| == i
      invariant forall i' :: 0 <= i' < i ==> |result[i']| == |colLabels|
      invariant forall i', j :: 0 <= i' < i && 0 <= j < |colLabels| ==>
        result[i'][j] == Round3(ExactCell(arr, iAe, jAe, i', j))
    {
      var row := new real[|arr[i]|];
      for j := 0 to |arr[i]|
        invariant forall j' :: 0 <= j' < j ==> row[j'] == Round3(ExactCell(arr, iAe, jAe, i, j'))
      {
        var cell: real;
        if i == iAe && j == jAe {
          cell := 1.0 / allowEntry;
        } else if i == iAe && j != jAe {
          cell := -arr[i][j] / allowEntry;
        } else if j == jAe && i != iAe {
          cell := arr[i][j] / allowEntry;
        } else {
          cell := (arr[i][j] * allowEntry - arr[i][jAe] * arr[iAe][j]) / allowEntry;
        }
        assert cell == ExactCell(arr, iAe, jAe, i, j);
        row[j] := Round3(cell);
      }
      result := result + [row[..]];
    }
    ghost var expected := Exchange(Tableau(arr, rowLabels, colLabels), iAe, jAe);
    assert result == expected.matrix by {
      forall i | 0 <= i < |arr|
        ensures result[i] == expected.matrix[i]
      {
        forall j | 0 <= j < |colLabels|
          ensures |expected.matrix[i]| == |colLabels| && result[i][j] == expected.matrix[i][j]
        {
          ExchangeCell(Tableau(arr, rowLabels, colLabels), iAe, jAe, i, j);
        }
        ExchangeRowLength(Tableau(arr, rowLabels, colLabels), iAe, jAe, i);
      }
    }
    return Tableau(result, newRowLabels, newColLabels);
  }

  /** A cell of JordanovaException's result on a pivot of at least 1e-12. */
  lemma ExchangeCell(t: Tableau, p: nat, q: nat, i: nat, j: nat)
    requires t.Valid() && p < |t.matrix| && q < |t.colLabels| && Abs(t.matrix[p][q]) >= PivotEps
    requires i < |t.matrix| && j < |t.colLabels|
    ensures |Exchange(t, p, q).matrix[i]| == |t.colLabels|
    ensures Exchange(t, p, q).matrix[i][j] == Round3(ExactCell(t.matrix, p, q, i, j))
  {
    assert ExactExchange(t, p, q).matrix[i][j] == ExactCell(t.matrix, p, q, i, j);
  }

  /** A row of JordanovaException's result has one cell per column. */
  lemma ExchangeRowLength(t: Tableau, p: nat, q: nat, i: nat)
    requires t.Valid() && p < |t.matrix| && q < |t.colLabels| && Abs(t.matrix[p][q]) >= PivotEps
    requires i < |t.matrix|
    ensures |Exchange(t, p, q).matrix[i]| == |t.colLabels|
  {
  }

  /**
    Exchanging twice on the same cell restores the tableau exactly when no rounding is
    applied: the modified Jordan exception is its own inverse.
  */
  lemma ExactExchangeTwice(t: Tableau, p: nat, q: nat)
    requires t.Valid() && p < |t.matrix| && q < |t.colLabels| && t.matrix[p][q] != 0.0
    ensures ExactExchange(t, p, q).matrix[p][q] != 0.0
    ensures ExactExchange(ExactExchange(t, p, q), p, q) == t
  {
    var m := t.matrix;
    var e := ExactExchange(t, p, q);
    assert e.matrix[p][q] == 1.0 / m[p][q];
    var e2 := ExactExchange(e, p, q);
    forall i | 0 <= i < |m|
      ensures e2.matrix[i] == m[i]
    {
      forall j | 0 <= j < |t.colLabels|
        ensures e2.matrix[i][j] == m[i][j]
      {
        ExactCellTwice(t, p, q, i, j);
      }
    }
    assert e2.matrix == m;
  }

  /** One cell of ExactExchangeTwice. */
  lemma ExactCellTwice(t: Tableau, p: nat, q: nat, i: nat, j: nat)
    requires t.Valid() && p < |t.matrix| && q < |t.colLabels| && t.matrix[p][q] != 0.0
    requires i < |t.matrix| && j < |t.colLabels|
    ensures ExactExchange(t, p, q).matrix[p][q] != 0.0
    ensures ExactExchange(ExactExchange(t, p, q), p, q).matrix[i][j] == t.matrix[i][j]
  {
    var m := t.matrix;
    var v := m[p][q];
    var e := ExactExchange(t, p, q).matrix;
    assert e[p][q] == 1.0 / v;
    assert ExactExchange(ExactExchange(t, p, q), p, q).matrix[i][j] == ExactCell(e, p, q, i, j);
    if i == p && j == q {
      assert 1.0 / (1.0 / v) == v;
    } else if i == p {
      assert e[p][j] == -m[p][j] / v;
      NegDivBack(m[p][j], v);
    } else if j == q {
      assert e[i][q] == m[i][q] / v;
      DivBack(m[i][q], v);
    } else {
      assert e[i][j] == (m[i][j] * v - m[i][q] * m[p][j]) / v;
      assert e[i][q] == m[i][q] / v;
      assert e[p][j] == -m[p][j] / v;
      RectangleBack(m[i][j], m[i][q], m[p][j], v);
    }
  }

  /** A pivot-row cell of ExactCellTwice: −a/v exchanged again on the pivot 1/v gives a back. */
  lemma NegDivBack(a: real, v: real)
    requires v != 0.0
    ensures -(-a / v) / (1.0 / v) == a
  {
    assert (-a / v) * v == -a;
  }

  /** A pivot-column cell of ExactCellTwice: a/v exchanged again on the pivot 1/v gives a back. */
  lemma DivBack(a: real, v: real)
    requires v != 0.0
    ensures (a / v) / (1.0 / v) == a
  {
    assert (a / v) * v == a;
  }

  /** Any other cell of ExactCellTwice: the rectangle rule applied twice gives a back. */
  lemma RectangleBack(a: real, b: real, c: real, v: real)
    requires v != 0.0
    ensures (((a * v - b * c) / v) * (1.0 / v) - (b / v) * (-c / v)) / (1.0 / v) == a
  {
    var e := (a * v - b * c) / v;
    assert e == a - (b * c) / v;
    var w := 1.0 / v;
    assert (b / v) * (-c / v) == -(b * c) / (v * v);
    assert e * w - (b / v) * (-c / v) == a / v;
  }

  /** matrix.go's form of the rectangle rule is the textbook one. */
  lemma RectangleForm(a: real, b: real, c: real, v: real)
    requires v != 0.0
    ensures (a * v - b * c) / v == Rectangle(a, b, c, v)
  {
  }

  /**
    The unrounded exchange keeps the meaning of the tableau: an assignment satisfies every
    row equation after it exactly when it satisfied every row equation before. The converse
    direction is the forward one applied to the exchanged tableau, which the second exchange
    turns back into the original.
  */
  lemma ExactExchangeKeepsMeaning(t: Tableau, p: nat, q: nat, env: Label -> real)
    requires t.Valid() && p < |t.matrix| && q < |t.colLabels| && t.matrix[p][q] != 0.0
    ensures Holds(ExactExchange(t, p, q), env) <==> Holds(t, env)
  {
    if Holds(t, env) {
      ExactExchangeSound(t, p, q, env);
    }
    var e := ExactExchange(t, p, q);
    if Holds(e, env) {
      ExactExchangeTwice(t, p, q);
      ExactExchangeSound(e, p, q, env);
    }
  }

  /** The forward direction: whatever satisfies the tableau satisfies its exchange. */
  lemma ExactExchangeSound(t: Tableau, p: nat, q: nat, env: Label -> real)
    requires t.Valid() && p < |t.matrix| && q < |t.colLabels| && t.matrix[p][q] != 0.0
    requires Holds(t, env)
    ensures Holds(ExactExchange(t, p, q), env)
  {
    var m, e := t.matrix, ExactExchange(t, p, q);
    var x := Values(t.colLabels, env);
    var y := env(t.rowLabels[p]);
    assert Values(e.colLabels, env) == x[q := y];
    assert y == Dot(m[p], x);
    assert env(e.rowLabels[p]) == x[q];
    assert env(e.rowLabels[p]) == Dot(e.matrix[p], x[q := y]) by {
      ExactPivotRow(t, p, q);
      PivotRowMeaning(m[p], x, q, e.matrix[p]);
    }
    forall i | 0 <= i < |m| && i != p
      ensures env(e.rowLabels[i]) == Dot(e.matrix[i], x[q := y])
    {
      assert env(e.rowLabels[i]) == Dot(m[i], x);
      ExactOtherRow(t, p, q, i, x);
    }
  }

  lemma ExactPivotRow(t: Tableau, p: nat, q: nat)
    requires t.Valid() && p < |t.matrix| && q < |t.colLabels| && t.matrix[p][q] != 0.0
    ensures var r, ap := ExactExchange(t, p, q).matrix[p], t.matrix[p];
      && |r| == |ap| && r[q] == 1.0 / ap[q]
      && forall j :: 0 <= j < |r| && j != q ==> r[j] == -ap[j] / ap[q]
  {
    var r := ExactExchange(t, p, q).matrix[p];
    forall j | 0 <= j < |r| && j != q
      ensures r[j] == -t.matrix[p][j] / t.matrix[p][q]
    {
      assert r[j] == ExactCell(t.matrix, p, q, p, j);
    }
  }

  lemma ExactOtherRow(t: Tableau, p: nat, q: nat, i: nat, x: seq<real>)
    requires t.Valid() && p < |t.matrix| && q < |t.colLabels| && t.matrix[p][q] != 0.0
    requires i < |t.matrix| && i != p && |x| == |t.colLabels|
    ensures Dot(ExactExchange(t, p, q).matrix[i], x[q := Dot(t.matrix[p], x)]) == Dot(t.matrix[i], x)
  {
    ExactOtherRowCells(t, p, q, i);
    RectangleRowBack(t.matrix[i], t.matrix[p], x, q, ExactExchange(t, p, q).matrix[i]);
  }

  /** The cells of a non-pivot row after the unrounded exchange. */
  lemma ExactOtherRowCells(t: Tableau, p: nat, q: nat, i: nat)
    requires t.Valid() && p < |t.matrix| && q < |t.colLabels| && t.matrix[p][q] != 0.0
    requires i < |t.matrix| && i != p
    ensures var ri, ai, ap := ExactExchange(t, p, q).matrix[i], t.matrix[i], t.matrix[p];
      && |ri| == |ai| && ri[q] == ai[q] / ap[q]
      && forall j :: 0 <= j < |ri| && j != q ==> ri[j] == Rectangle(ai[j], ai[q], ap[j], ap[q])
  {
    var ri, ai, ap := ExactExchange(t, p, q).matrix[i], t.matrix[i], t.matrix[p];
    forall j | 0 <= j < |ri| && j != q
      ensures ri[j] == Rectangle(ai[j], ai[q], ap[j], ap[q])
    {
      assert ri[j] == ExactCell(t.matrix, p, q, i, j);
      RectangleForm(ai[j], ai[q], ap[j], ap[q]);
    }
    assert ri[q] == ExactCell(t.matrix, p, q, i, q);
  }

  /** A rectangle-rule row with +a_iq / v in the pivot column says exactly what the old row said. */
  lemma RectangleRowBack(ai: seq<real>, ap: seq<real>, x: seq<real>, q: nat, r: seq<real>)
    requires |ai| == |ap| == |x| == |r| && q < |ap| && ap[q] != 0.0
    requires forall j :: 0 <= j < |r| && j != q ==> r[j] == Rectangle(ai[j], ai[q], ap[j], ap[q])
    requires r[q] == ai[q] / ap[q]
    ensures Dot(r, x[q := Dot(ap, x)]) == Dot(ai, x)
  {
    OtherRowMeaning(ai, ap, x, q, r);
  }

  // ---------------------------------------------------------------------------------
  // The inconsistency check.
  // ---------------------------------------------------------------------------------

  /**
    The row, labelled "0", states 0 = c with c its constant cell beyond 1e-9 while every
    other cell is within 1e-9 of zero.
  */
  predicate Contradicts(row: seq<real>, rowLabel: Label)
  {
    rowLabel == "0" && |row| > 0 && (forall j :: 1 <= j < |row| ==> Abs(row[j]) <= Eps) && Abs(row[0]) > Eps
  }

  /** The error for the first contradicting row at or after `from`, or none. */
  function FirstContradiction(m: Matrix, rowLabels: seq<Label>, from: nat): (r: Option<SolveError>)
    requires |rowLabels| >= |m| && from <= |m|
    ensures r.None? <==> forall i :: from <= i < |m| ==> !Contradicts(m[i], rowLabels[i])
    ensures r.Some? ==>
      exists i :: (from <= i < |m| && Contradicts(m[i], rowLabels[i]) && r.value == Inconsistent(m[i][0]) &&
                   forall l :: from <= l < i ==> !Contradicts(m[l], rowLabels[l]))
    decreases |m| - from
  {
    if from == |m| then None
    else if Contradicts(m[from], rowLabels[from]) then Some(Inconsistent(m[from][0]))
    else FirstContradiction(m, rowLabels, from + 1)
  }

  /** Every row labelled "0" has a constant cell to read. */
  predicate ZeroRowsHaveConstant(m: Matrix, rowLabels: seq<Label>)
    requires |rowLabels| >= |m|
  {
    forall i :: 0 <= i < |m| && rowLabels[i] == "0" ==> |m[i]| > 0
  }

  /**
    checkFinalZeroEquations: the error for the first row labelled "0" that reads 0 = c with
    c beyond 1e-9, or none when no row does.
  */
  method CheckFinalZeroEquations(matrix: Matrix, rowLabels: seq<Label>) returns (err: Option<SolveError>)
    requires |rowLabels| >= |matrix| && ZeroRowsHaveConstant(matrix, rowLabels)
    ensures err == FirstContradiction(matrix, rowLabels, 0)
  {
    for i := 0 to |matrix|
      invariant FirstContradiction(matrix, rowLabels, 0) == FirstContradiction(matrix, rowLabels, i)
    {
      var row := matrix[i];
      if rowLabels[i] == "0" {
        var allZero := true;
        var j := 1;
        while j < |row|
          invariant 1 <= j <= |row|
          invariant allZero
          invariant forall l :: 1 <= l < j ==> Abs(row[l]) <= Eps
        {
          if Abs(row[j]) > Eps {
            allZero := false;
            break;
          }
          j := j + 1;
        }
        assert allZero <==> forall l :: 1 <= l < |row| ==> Abs(row[l]) <= Eps;
        if allZero && Abs(row[0]) > Eps {
          return Some(Inconsistent(row[0]));
        }
      }
    }
    return None;
  }

  // ---------------------------------------------------------------------------------
  // Dropping the zero columns and rows.
  // ---------------------------------------------------------------------------------

  /** Columns that are kept: those not labelled "0". */
  function KeptColumns(colLabels: seq<Label>): seq<bool>
  {
    seq(|colLabels|, j requires 0 <= j < |colLabels| => colLabels[j] != "0")
  }

  /** The row has a cell beyond 1e-9 in one of the columns `cols`. */
  predicate NonzeroOn(row: seq<real>, cols: seq<nat>)
    requires forall k :: 0 <= k < |cols| ==> cols[k] < |row|
  {
    exists k :: 0 <= k < |cols| && Abs(row[cols[k]]) > Eps
  }

  /** Some cell of the row is beyond 1e-9. */
  predicate HasNonzeroCell(row: seq<real>)
  {
    exists j :: 0 <= j < |row| && Abs(row[j]) > Eps
  }

  /** Rows that are kept: those nonzero on a kept column. */
  function KeptRows(m: Matrix, cols: seq<nat>): seq<bool>
    requires forall i, k :: 0 <= i < |m| && 0 <= k < |cols| ==> cols[k] < |m[i]|
  {
    seq(|m|, i requires 0 <= i < |m| => NonzeroOn(m[i], cols))
  }

  /**
    What removeZeroColumnsAndRows returns: the input when it has no rows or no columns,
    else the kept rows restricted to the kept columns, both in their old order.
  */
  function Trim(t: Tableau): (r: Tableau)
    requires t.Valid()
    ensures r.Valid() && |r.matrix| <= |t.matrix| && |r.colLabels| <= |t.colLabels|
  {
    if |t.matrix| == 0 || |t.colLabels| == 0 then t
    else
      var cols := Positions(KeptColumns(t.colLabels), |t.colLabels|);
      var rows := Positions(KeptRows(t.matrix, cols), |t.matrix|);
      Tableau(seq(|rows|, a requires 0 <= a < |rows| => Gather(t.matrix[rows[a]], cols)),
              Gather(t.rowLabels, rows), Gather(t.colLabels, cols))
  }

  /**
    After trimming a tableau with rows and columns, no column is labelled "0" and every row
    has a cell beyond 1e-9.
  */
  lemma TrimLeavesNoZeros(t: Tableau)
    requires t.Valid() && |t.matrix| > 0 && |t.colLabels| > 0
    ensures forall j :: 0 <= j < |Trim(t).colLabels| ==> Trim(t).colLabels[j] != "0"
    ensures forall i :: 0 <= i < |Trim(t).matrix| ==> HasNonzeroCell(Trim(t).matrix[i])
  {
    forall j | 0 <= j < |Trim(t).colLabels|
      ensures Trim(t).colLabels[j] != "0"
    {
      TrimColumnLabel(t, j);
    }
    forall i | 0 <= i < |Trim(t).matrix|
      ensures HasNonzeroCell(Trim(t).matrix[i])
    {
      TrimRowNonzero(t, i);
    }
  }

  /** A column kept by the trim is not labelled "0". */
  lemma TrimColumnLabel(t: Tableau, j: nat)
    requires t.Valid() && |t.matrix| > 0 && |t.colLabels| > 0 && j < |Trim(t).colLabels|
    ensures Trim(t).colLabels[j] != "0"
  {
    var cols := Positions(KeptColumns(t.colLabels), |t.colLabels|);
    assert Trim(t).colLabels[j] == t.colLabels[cols[j]] && KeptColumns(t.colLabels)[cols[j]];
  }

  /** A row kept by the trim has a cell beyond 1e-9 among the kept columns. */
  lemma TrimRowNonzero(t: Tableau, i: nat)
    requires t.Valid() && |t.matrix| > 0 && |t.colLabels| > 0 && i < |Trim(t).matrix|
    ensures HasNonzeroCell(Trim(t).matrix[i])
  {
    var cols := Positions(KeptColumns(t.colLabels), |t.colLabels|);
    var rows := Positions(KeptRows(t.matrix, cols), |t.matrix|);
    var row := t.matrix[rows[i]];
    assert KeptRows(t.matrix, cols)[rows[i]];
    assert NonzeroOn(row, cols);
    var k :| 0 <= k < |cols| && Abs(row[cols[k]]) > Eps;
    assert Trim(t).matrix[i] == Gather(row, cols);
    assert Gather(row, cols)[k] == row[cols[k]];
  }

  /** Trimming a second time changes nothing. */
  lemma TrimIdempotent(t: Tableau)
    requires t.Valid()
    ensures Trim(Trim(t)) == Trim(t)
  {
    var r := Trim(t);
    if |t.matrix| > 0 && |t.colLabels| > 0 && |r.matrix| > 0 && |r.colLabels| > 0 {
      TrimLeavesNoZeros(t);
      TrimOfClean(r);
    }
  }

  /** A tableau without "0" columns and without zero rows is left as it is. */
  lemma TrimOfClean(r: Tableau)
    requires r.Valid() && |r.matrix| > 0 && |r.colLabels| > 0
    requires forall j :: 0 <= j < |r.colLabels| ==> r.colLabels[j] != "0"
    requires forall i :: 0 <= i < |r.matrix| ==> HasNonzeroCell(r.matrix[i])
    ensures Trim(r) == r
  {
    var cols := Positions(KeptColumns(r.colLabels), |r.colLabels|);
    AllColumnsKept(r.colLabels);
    AllRowsKept(r.matrix, cols);
    TrimKeepsAll(r);
  }

  /** A trim that keeps every column and every row leaves the tableau as it is. */
  lemma TrimKeepsAll(t: Tableau)
    requires t.Valid() && |t.matrix| > 0 && |t.colLabels| > 0
    requires |Positions(KeptColumns(t.colLabels), |t.colLabels|)| == |t.colLabels|
    requires |Positions(KeptRows(t.matrix, Positions(KeptColumns(t.colLabels), |t.colLabels|)), |t.matrix|)| == |t.matrix|
    ensures Trim(t) == t
  {
    var cols := Positions(KeptColumns(t.colLabels), |t.colLabels|);
    var rows := Positions(KeptRows(t.matrix, cols), |t.matrix|);
    PositionsFull(KeptColumns(t.colLabels), |t.colLabels|);
    PositionsFull(KeptRows(t.matrix, cols), |t.matrix|);
    var r := Trim(t);
    assert r.rowLabels == t.rowLabels by {
      GatherAll(t.rowLabels, rows);
    }
    assert r.colLabels == t.colLabels by {
      GatherAll(t.colLabels, cols);
    }
    assert r.matrix == t.matrix by {
      forall a | 0 <= a < |t.matrix|
        ensures r.matrix[a] == t.matrix[a]
      {
        assert r.matrix[a] == Gather(t.matrix[rows[a]], cols);
        GatherAll(t.matrix[a], cols);
      }
    }
  }

  lemma AllColumnsKept(colLabels: seq<Label>)
    requires forall j :: 0 <= j < |colLabels| ==> colLabels[j] != "0"
    ensures var cols := Positions(KeptColumns(colLabels), |colLabels|);
      |cols| == |colLabels| && forall k :: 0 <= k < |cols| ==> cols[k] == k
  {
    PositionsOfAll(KeptColumns(colLabels), |colLabels|);
  }

  lemma AllRowsKept(m: Matrix, cols: seq<nat>)
    requires |m| > 0 && IsRect(m, |cols|) && forall k :: 0 <= k < |cols| ==> cols[k] == k
    requires forall i :: 0 <= i < |m| ==> HasNonzeroCell(m[i])
    ensures var rows := Positions(KeptRows(m, cols), |m|);
      |rows| == |m| && forall k :: 0 <= k < |rows| ==> rows[k] == k
  {
    var rowMask := KeptRows(m, cols);
    forall i | 0 <= i < |m|
      ensures rowMask[i]
    {
      var j :| 0 <= j < |m[i]| && Abs(m[i][j]) > Eps;
      assert cols[j] == j;
    }
    PositionsOfAll(rowMask, |m|);
  }

  /** Gathering every position in order gives the sequence back. */
  lemma GatherAll<T>(s: seq<T>, ps: seq<nat>)
    requires |ps| == |s| && forall k :: 0 <= k < |ps| ==> ps[k] == k
    ensures Gather(s, ps) == s
  {
  }

  /**
    Trimming keeps the meaning of the tableau for an assignment that gives the symbol "0"
    the value 0: the dropped columns contribute nothing and the kept rows keep their symbols.
  */
  lemma TrimKeepsMeaning(t: Tableau, env: Label -> real)
    requires t.Valid() && Holds(t, env) && env("0") == 0.0
    ensures Holds(Trim(t), env)
  {
    if |t.matrix| > 0 && |t.colLabels| > 0 {
      var r := Trim(t);
      var mask := KeptColumns(t.colLabels);
      var cols := Positions(mask, |t.colLabels|);
      var rows := Positions(KeptRows(t.matrix, cols), |t.matrix|);
      var x := Values(t.colLabels, env);
      GatherValues(t.colLabels, cols, env);
      forall a | 0 <= a < |r.matrix|
        ensures env(r.rowLabels[a]) == Dot(r.matrix[a], Values(r.colLabels, env))
      {
        DotGatherAll(t.matrix[rows[a]], x, mask);
      }
    }
  }

  /** removeZeroColumnsAndRows, with the kept columns and rows collected first. */
  method RemoveZeroColumnsAndRows(matrix: Matrix, rowLabels: seq<Label>, colLabels: seq<Label>) returns (r: Tableau)
    requires Tableau(matrix, rowLabels, colLabels).Valid()
    ensures r == Trim(Tableau(matrix, rowLabels, colLabels))
  {
    if |matrix| == 0 || |colLabels| == 0 {
      return Tableau(matrix, rowLabels, colLabels);
    }
    var keepCols := KeepColumns(colLabels);
    var keepRows := KeepRows(matrix, keepCols);
    var newMat := Submatrix(matrix, keepRows, keepCols);
    var newRowLabels := Pick(rowLabels, keepRows);
    var newColLabels := Pick(colLabels, keepCols);
    r := Tableau(newMat, newRowLabels, newColLabels);
  }

  /** The indices of the columns not labelled "0", in order. */
  method KeepColumns(colLabels: seq<Label>) returns (keepCols: seq<nat>)
    ensures keepCols == Positions(KeptColumns(colLabels), |colLabels|)
  {
    keepCols := [];
    for j := 0 to |colLabels|
      invariant keepCols == Positions(KeptColumns(colLabels), j)
    {
      if colLabels[j] != "0" {
        keepCols := keepCols + [j];
      }
    }
  }

  /** The indices of the rows with a cell beyond 1e-9 in a kept column, in order. */
  method KeepRows(matrix: Matrix, keepCols: seq<nat>) returns (keepRows: seq<nat>)
    requires forall i, k :: 0 <= i < |matrix| && 0 <= k < |keepCols| ==> keepCols[k] < |matrix[i]|
    ensures keepRows == Positions(KeptRows(matrix, keepCols), |matrix|)
  {
    keepRows := [];
    for i := 0 to |matrix|
      invariant keepRows == Positions(KeptRows(matrix, keepCols), i)
    {
      var isZeroRow := true;
      var k := 0;
      while k < |keepCols|
        invariant 0 <= k <= |keepCols|
        invariant isZeroRow
        invariant forall l :: 0 <= l < k ==> Abs(matrix[i][keepCols[l]]) <= Eps
      {
        if Abs(matrix[i][keepCols[k]]) > Eps {
          isZeroRow := false;
          break;
        }
        k := k + 1;
      }
      assert isZeroRow <==> !NonzeroOn(matrix[i], keepCols);
      if !isZeroRow {
        keepRows := keepRows + [i];
      }
    }
  }

  /** The cells in the rows `keepRows` and the columns `keepCols`. */
  method Submatrix(matrix: Matrix, keepRows: seq<nat>, keepCols: seq<nat>) returns (newMat: Matrix)
    requires forall a :: 0 <= a < |keepRows| ==> keepRows[a] < |matrix|
    requires forall i, k :: 0 <= i < |matrix| && 0 <= k < |keepCols| ==> keepCols[k] < |matrix[i]|
    ensures newMat == seq(|keepRows|, a requires 0 <= a < |keepRows| => Gather(matrix[keepRows[a]], keepCols))
  {
    newMat := [];
    for newI := 0 to |keepRows|
      invariant |newMat| == newI
      invariant forall a :: 0 <= a < newI ==> newMat[a] == Gather(matrix[keepRows[a]], keepCols)
    {
      var row := new real[|keepCols|];
      for newJ := 0 to |keepCols|
        invariant forall b :: 0 <= b < newJ ==> row[b] == matrix[keepRows[newI]][keepCols[b]]
      {
        row[newJ] := matrix[keepRows[newI]][keepCols[newJ]];
      }
      newMat := newMat + [row[..]];
    }
  }

  /** The labels at the positions `keep`. */
  method Pick(labels: seq<Label>, keep: seq<nat>) returns (picked: seq<Label>)
    requires forall k :: 0 <= k < |keep| ==> keep[k] < |labels|
    ensures picked == Gather(labels, keep)
  {
    var out := new Label[|keep|];
    for k := 0 to |keep|
      invariant forall l :: 0 <= l < k ==> out[l] == labels[keep[l]]
    {
      out[k] := labels[keep[k]];
    }
    picked := out[..];
  }

  // ---------------------------------------------------------------------------------
  // The stages of solveSteps.
  // ---------------------------------------------------------------------------------

  /** The tableau with rows a and b (cells and labels) interchanged. */
  function SwapRows(t: Tableau, a: nat, b: nat): (r: Tableau)
    requires t.Valid() && a < |t.matrix| && b < |t.matrix|
    ensures r.Valid() && |r.matrix| == |t.matrix| && r.colLabels == t.colLabels
  {
    Tableau(t.matrix[a := t.matrix[b]][b := t.matrix[a]],
            t.rowLabels[a := t.rowLabels[b]][b := t.rowLabels[a]],
            t.colLabels)
  }

  /** Interchanging two rows keeps the set of equations, hence their meaning. */
  lemma SwapRowsKeepsMeaning(t: Tableau, a: nat, b: nat, env: Label -> real)
    requires t.Valid() && a < |t.matrix| && b < |t.matrix|
    ensures Holds(SwapRows(t, a, b), env) <==> Holds(t, env)
  {
    var r := SwapRows(t, a, b);
    var x := Values(t.colLabels, env);
    if Holds(r, env) {
      forall i | 0 <= i < |t.matrix|
        ensures env(t.rowLabels[i]) == Dot(t.matrix[i], x)
      {
        var k := if i == a then b else if i == b then a else i;
        assert r.rowLabels[k] == t.rowLabels[i] && r.matrix[k] == t.matrix[i];
      }
    }
  }

  /** Interchanging the same two rows again restores the tableau. */
  lemma SwapRowsTwice(t: Tableau, a: nat, b: nat)
    requires t.Valid() && a < |t.matrix| && b < |t.matrix|
    ensures SwapRows(SwapRows(t, a, b), a, b) == t
  {
    var r := SwapRows(SwapRows(t, a, b), a, b);
    assert r.matrix == t.matrix;
    assert r.rowLabels == t.rowLabels;
  }

  /** The first row at or after k that has an allowed column, or -1. */
  function RowWithPivot(m: Matrix, used: seq<int>, k: nat): (r: int)
    ensures r == -1 || (k <= r < |m| && FirstAllowed(m[r], used, 1) != -1)
    ensures forall l :: k <= l < |m| && (r == -1 || l < r) ==> FirstAllowed(m[l], used, 1) == -1
    decreases |m| - k
  {
    if k >= |m| then -1
    else if FirstAllowed(m[k], used, 1) != -1 then k
    else RowWithPivot(m, used, k + 1)
  }

  /** Stage i's outcome of the pivot search. */
  datatype Choice =
    | NoPivot                             // no row from i-1 on has an allowed column
    | PivotAt(state: Tableau, col: int)   // the tableau after any interchange, and the column

  /**
    Stage i's pivot: the first allowed column of row i-1; failing that, the first later row
    with an allowed column is interchanged with row i-1 and its first allowed column is used.
  */
  function Choose(t: Tableau, used: seq<int>, i: nat): (c: Choice)
    requires t.Valid() && 1 <= i <= |t.matrix|
    ensures c.PivotAt? ==>
      && c.state.Valid() && |c.state.matrix| == |t.matrix| && c.state.colLabels == t.colLabels
      && c.col == FirstAllowed(c.state.matrix[i - 1], used, 1) && Allowed(c.state.matrix[i - 1], used, c.col)
    ensures c.NoPivot? <==> forall l :: i - 1 <= l < |t.matrix| ==> FirstAllowed(t.matrix[l], used, 1) == -1
    ensures c.PivotAt? && FirstAllowed(t.matrix[i - 1], used, 1) != -1 ==> c.state == t
    ensures c.PivotAt? && FirstAllowed(t.matrix[i - 1], used, 1) == -1 ==>
      RowWithPivot(t.matrix, used, i) != -1 && c.state == SwapRows(t, i - 1, RowWithPivot(t.matrix, used, i))
  {
    var j := FirstAllowed(t.matrix[i - 1], used, 1);
    if j != -1 then PivotAt(t, j)
    else
      var k := RowWithPivot(t.matrix, used, i);
      if k == -1 then NoPivot
      else
        var s := SwapRows(t, i - 1, k);
        PivotAt(s, FirstAllowed(s.matrix[i - 1], used, 1))
  }

  /** The interchange a stage may make keeps exactly the solutions of the tableau. */
  lemma ChooseKeepsMeaning(t: Tableau, used: seq<int>, i: nat, env: Label -> real)
    requires t.Valid() && 1 <= i <= |t.matrix| && Choose(t, used, i).PivotAt?
    ensures Holds(Choose(t, used, i).state, env) <==> Holds(t, env)
  {
    if FirstAllowed(t.matrix[i - 1], used, 1) == -1 {
      SwapRowsKeepsMeaning(t, i - 1, RowWithPivot(t.matrix, used, i), env);
    }
  }

  /** The steps of a run of stages and the tableau it ends on. */
  datatype Run = Run(steps: seq<Step>, last: Tableau)

  /** The step recorded for stage i on the pivot (i-1, j) of `s`, which led to `next`. */
  function StageStep(s: Tableau, next: Tableau, i: nat, j: nat): Step
    requires s.Valid() && 1 <= i <= |s.matrix| && j < |s.colLabels|
  {
    Step(Stage(i, s.matrix[i - 1][j], i, j), next.matrix, next.rowLabels, next.colLabels, i - 1, j)
  }

  /**
    Stages i .. rank from the tableau `t`, the columns `used` already spent: at most one
    step per stage, and step k is stage i+k on row i-1+k with a pivot value beyond 1e-9 in
    magnitude and a variable column used by no other stage. The steps form a chain of
    stages from `t`, and the run ends on the tableau of the last one.
  */
  function Rounds(t: Tableau, used: seq<int>, i: nat, rank: int): (r: Run)
    requires t.Valid() && 1 <= i && rank <= |t.matrix|
    ensures r.last.Valid() && |r.last.matrix| == |t.matrix| && |r.last.colLabels| == |t.colLabels|
    ensures |r.steps| <= if rank >= i then rank + 1 - i else 0
    ensures StagesFrom(r.steps, i, used, |t.colLabels|)
    ensures StageChain(t, r.steps, used, i) && r.last == Before(t, r.steps, |r.steps|)
    ensures Maximal(r, used, i, rank)
    decreases rank + 1 - i
  {
    if i > rank then Run([], t)
    else match Choose(t, used, i)
      case NoPivot =>
        assert used + PivotCols([]) == used;
        Run([], t)
      case PivotAt(s, j) =>
        var next := Exchange(s, i - 1, j);
        var rest := Rounds(next, used + [j], i + 1, rank);
        var step := StageStep(s, next, i, j);
        StagesCons(step, rest.steps, i, used, |t.colLabels|);
        StageStepIsStage(t, used, i, s, j);
        ChainCons(t, step, rest.steps, used, i);
        MaximalCons(step, rest, used, i, rank);
        Run([step] + rest.steps, rest.last)
  }

  /** One stage of Rounds that finds a pivot, unfolded for the stage loop (StageAdvance). */
  lemma RoundsStep(t: Tableau, used: seq<int>, i: nat, rank: int, s: Tableau, j: int)
    requires t.Valid() && 1 <= i <= rank && rank <= |t.matrix|
    requires Choose(t, used, i) == PivotAt(s, j)
    ensures var next := Exchange(s, i - 1, j);
      var rest := Rounds(next, used + [j], i + 1, rank);
      Rounds(t, used, i, rank) == Run([StageStep(s, next, i, j)] + rest.steps, rest.last)
  {
  }

  /**
    The run of stages from i stops for one of the two reasons of the loop: the stage after
    the last step is beyond the rank, or no row from that stage's row on has a column
    allowed once the run's pivot columns are spent.
  */
  predicate Maximal(r: Run, used: seq<int>, i: nat, rank: int)
  {
    i + |r.steps| > rank ||
      (r.last.Valid() && 1 <= i + |r.steps| <= |r.last.matrix| &&
       Choose(r.last, used + PivotCols(r.steps), i + |r.steps|).NoPivot?)
  }

  /** A stage on column `step.pivotCol` in front of a run that stops keeps it stopping. */
  lemma MaximalCons(step: Step, rest: Run, used: seq<int>, i: nat, rank: int)
    requires Maximal(rest, used + [step.pivotCol], i + 1, rank)
    ensures Maximal(Run([step] + rest.steps, rest.last), used, i, rank)
  {
    PivotColsFront(step, rest.steps);
    assert (used + [step.pivotCol]) + PivotCols(rest.steps) == used + ([step.pivotCol] + PivotCols(rest.steps));
  }

  /** The pivot columns of a step in front of a whole run. */
  lemma PivotColsFront(step: Step, rest: seq<Step>)
    ensures PivotCols([step] + rest) == [step.pivotCol] + PivotCols(rest)
  {
  }

  /**
    `step` is stage i taken from the tableau b with the columns `used` spent: the stage finds
    a pivot, pivots on that column, and records the rounded exchange of the chosen tableau.
  */
  predicate StageOf(b: Tableau, used: seq<int>, i: nat, step: Step)
  {
    && b.Valid() && 1 <= i <= |b.matrix|
    && Choose(b, used, i).PivotAt?
    && step.pivotCol == Choose(b, used, i).col
    && step.State() == Exchange(Choose(b, used, i).state, i - 1, step.pivotCol)
  }

  /** The columns the steps pivot on, in order. */
  function PivotCols(steps: seq<Step>): seq<int>
  {
    seq(|steps|, l requires 0 <= l < |steps| => steps[l].pivotCol)
  }

  /**
    `steps` are stages i, i+1, ... taken one after another from b: the first is stage i
    taken from b, and the rest are taken from its tableau with its column spent.
  */
  predicate StageChain(b: Tableau, steps: seq<Step>, used: seq<int>, i: nat)
    decreases |steps|
  {
    |steps| == 0 ||
      (StageOf(b, used, i, steps[0]) && StageChain(steps[0].State(), steps[1..], used + [steps[0].pivotCol], i + 1))
  }

  /** A stage in front of a chain of the later stages from its tableau. */
  lemma ChainCons(b: Tableau, step: Step, rest: seq<Step>, used: seq<int>, i: nat)
    requires StageOf(b, used, i, step)
    requires StageChain(step.State(), rest, used + [step.pivotCol], i + 1)
    ensures StageChain(b, [step] + rest, used, i)
    ensures Before(b, [step] + rest, |rest| + 1) == Before(step.State(), rest, |rest|)
  {
    assert ([step] + rest)[0] == step && ([step] + rest)[1..] == rest;
  }

  /** The step Rounds records for a stage that finds a pivot is that stage. */
  lemma StageStepIsStage(t: Tableau, used: seq<int>, i: nat, s: Tableau, j: int)
    requires t.Valid() && 1 <= i <= |t.matrix| && Choose(t, used, i) == PivotAt(s, j)
    ensures 0 <= j < |s.colLabels| && i - 1 < |s.matrix|
    ensures StageOf(t, used, i, StageStep(s, Exchange(s, i - 1, j), i, j))
  {
  }

  /**
    Step k of a chain of stages from b is stage n = i+k taken from the tableau of the step
    before it (b for the first), with the columns of the earlier steps spent.
  */
  lemma {:induction false} StageChainAt(b: Tableau, steps: seq<Step>, used: seq<int>, i: nat, k: nat, n: nat)
    requires StageChain(b, steps, used, i) && k < |steps| && n == i + k
    ensures StageOf(Before(b, steps, k), used + PivotCols(steps[..k]), n, steps[k])
    decreases k
  {
    if k == 0 {
      ChainStart(b, steps, used);
    } else {
      StageChainAt(steps[0].State(), steps[1..], used + [steps[0].pivotCol], i + 1, k - 1, n);
      ChainShift(b, steps, used, k);
    }
  }

  /** The first step of a chain starts from b with no more columns spent. */
  lemma ChainStart(b: Tableau, steps: seq<Step>, used: seq<int>)
    requires 0 < |steps|
    ensures Before(b, steps, 0) == b && used + PivotCols(steps[..0]) == used
  {
    assert PivotCols(steps[..0]) == [];
  }

  /** Step k of a chain, seen from its second step. */
  lemma ChainShift(b: Tableau, steps: seq<Step>, used: seq<int>, k: nat)
    requires 0 < k < |steps|
    ensures Before(b, steps, k) == Before(steps[0].State(), steps[1..], k - 1)
    ensures used + PivotCols(steps[..k]) == (used + [steps[0].pivotCol]) + PivotCols(steps[1..][..k - 1])
    ensures steps[k] == steps[1..][k - 1]
  {
    PivotColsCons(steps[0], steps[1..], k - 1);
    assert [steps[0]] + steps[1..] == steps;
  }

  /** The pivot columns of a step in front of others. */
  lemma PivotColsCons(step: Step, rest: seq<Step>, k: nat)
    requires k <= |rest|
    ensures PivotCols(([step] + rest)[..k + 1]) == [step.pivotCol] + PivotCols(rest[..k])
  {
    assert ([step] + rest)[..k + 1] == [step] + rest[..k];
  }

  /** What solveSteps returns for the matrix and its labels. */
  function Solve(a: Matrix, rLabels: seq<Label>, cLabels: seq<Label>): Solved
    requires Tableau(a, rLabels, cLabels).Valid() && |a| > 0 && (|cLabels| > 0 || "0" !in rLabels)
  {
    var run := Rounds(Tableau(a, rLabels, cLabels), [], 1, MatrixRank(a));
    var w := run.last;
    assert |cLabels| == 0 ==> w == Tableau(a, rLabels, cLabels);
    match FirstContradiction(w.matrix, w.rowLabels, 0)
    case Some(e) => Solved(run.steps, Some(e))
    case None =>
      var f := Trim(w);
      match FirstContradiction(f.matrix, f.rowLabels, 0)
      case Some(e) => Solved(run.steps, Some(e))
      case None =>
        if |f.matrix| != |w.matrix| || |f.matrix[0]| != |w.matrix[0]| then
          Solved(run.steps + [Step(FinalMatrix, f.matrix, f.rowLabels, f.colLabels, -1, -1)], None)
        else Solved(run.steps, None)
  }

  /**
    solveSteps: stage i = 1 .. MatrixRank(a) pivots on row i-1 and its first allowed column,
    interchanging a later row in first when row i-1 has none and stopping when no row has
    one; then the contradiction check, the trim, the check again, and a final step when
    the trim changed the dimensions.
  */
  method SolveSteps(a: Matrix, rLabels: seq<Label>, cLabels: seq<Label>) returns (r: Solved)
    requires Tableau(a, rLabels, cLabels).Valid() && |a| > 0 && (|cLabels| > 0 || "0" !in rLabels)
    ensures r == Solve(a, rLabels, cLabels)
  {
    var steps, working := RunStages(a, rLabels, cLabels);
    var workingMatrix, workingRowLabels, workingColLabels := working.matrix, working.rowLabels, working.colLabels;
    assert |cLabels| == 0 ==> working == Tableau(a, rLabels, cLabels);
    var err := CheckFinalZeroEquations(workingMatrix, workingRowLabels);
    if err.Some? {
      return Solved(steps, err);
    }
    var final := RemoveZeroColumnsAndRows(workingMatrix, workingRowLabels, workingColLabels);
    err := CheckFinalZeroEquations(final.matrix, final.rowLabels);
    if err.Some? {
      return Solved(steps, err);
    }
    if |final.matrix| != |workingMatrix| || |final.matrix[0]| != |workingMatrix[0]| {
      steps := steps + [Step(FinalMatrix, final.matrix, final.rowLabels, final.colLabels, -1, -1)];
    }
    return Solved(steps, None);
  }

  /** The stage loop of solveSteps: the steps it records and the tableau it ends on. */
  method RunStages(a: Matrix, rLabels: seq<Label>, cLabels: seq<Label>) returns (steps: seq<Step>, last: Tableau)
    requires Tableau(a, rLabels, cLabels).Valid()
    ensures Run(steps, last) == Rounds(Tableau(a, rLabels, cLabels), [], 1, MatrixRank(a))
  {
    ghost var t0 := Tableau(a, rLabels, cLabels);
    steps := [];
    assert Then([], Rounds(t0, [], 1, MatrixRank(a))) == Rounds(t0, [], 1, MatrixRank(a)) by {
      assert [] + Rounds(t0, [], 1, MatrixRank(a)).steps == Rounds(t0, [], 1, MatrixRank(a)).steps;
    }
    var workingMatrix, workingRowLabels, workingColLabels := a, rLabels, cLabels;
    var rank := MatrixRank(workingMatrix);
    var used: seq<int> := [];
    var i := 1;
    while i <= rank
      invariant 1 <= i
      invariant Tableau(workingMatrix, workingRowLabels, workingColLabels).Valid()
      invariant |workingMatrix| == |a| && |workingColLabels| == |cLabels|
      invariant Rounds(t0, [], 1, rank) ==
        Then(steps, Rounds(Tableau(workingMatrix, workingRowLabels, workingColLabels), used, i, rank))
      decreases rank + 1 - i
    {
      ghost var current := Tableau(workingMatrix, workingRowLabels, workingColLabels);
      var found, j;
      found, workingMatrix, workingRowLabels, j := FindPivot(workingMatrix, workingRowLabels, workingColLabels, used, i);
      if !found {
        ThenNothing(steps, current);
        break;
      }
      ghost var chosen := Tableau(workingMatrix, workingRowLabels, workingColLabels);
      ghost var before := used;
      used := used + [j];
      var desc := Stage(i, workingMatrix[i - 1][j], i, j);
      var next := JordanovaException(workingMatrix, workingRowLabels, workingColLabels, i - 1, j);
      var step := Step(desc, next.matrix, next.rowLabels, next.colLabels, i - 1, j);
      assert step == StageStep(chosen, next, i, j);
      StageAdvance(t0, steps, current, before, i, rank, chosen, j, step);
      steps := steps + [step];
      workingMatrix, workingRowLabels, workingColLabels := next.matrix, next.rowLabels, next.colLabels;
      i := i + 1;
    }
    last := Tableau(workingMatrix, workingRowLabels, workingColLabels);
    ThenNothing(steps, last);
  }

  /**
    The pivot search of stage i: allowEntry on row i-1, and when it finds nothing, the first
    later row where it finds a column is interchanged with row i-1.
  */
  method FindPivot(matrix: Matrix, rowLabels: seq<Label>, colLabels: seq<Label>, used: seq<int>, i: nat)
    returns (found: bool, newMatrix: Matrix, newRowLabels: seq<Label>, j: int)
    requires Tableau(matrix, rowLabels, colLabels).Valid() && 1 <= i <= |matrix|
    ensures var c := Choose(Tableau(matrix, rowLabels, colLabels), used, i);
      && (found <==> c.PivotAt?)
      && (found ==> c == PivotAt(Tableau(newMatrix, newRowLabels, colLabels), j))
      && (!found ==> newMatrix == matrix && newRowLabels == rowLabels)
  {
    ghost var t := Tableau(matrix, rowLabels, colLabels);
    newMatrix, newRowLabels := matrix, rowLabels;
    j := AllowEntry(matrix[i - 1], used);
    if j != -1 {
      return true, newMatrix, newRowLabels, j;
    }
    var k := i;
    while k < |matrix|
      invariant i <= k <= |matrix|
      invariant RowWithPivot(matrix, used, i) == RowWithPivot(matrix, used, k)
    {
      j := AllowEntry(matrix[k], used);
      if j != -1 {
        newMatrix := matrix[i - 1 := matrix[k]][k := matrix[i - 1]];
        newRowLabels := rowLabels[i - 1 := rowLabels[k]][k := rowLabels[i - 1]];
        assert Tableau(newMatrix, newRowLabels, colLabels) == SwapRows(t, i - 1, k);
        return true, newMatrix, newRowLabels, j;
      }
      k := k + 1;
    }
    return false, newMatrix, newRowLabels, j;
  }

  /**
    The k-th of `steps` is stage i+k pivoting on row i-1+k, with a pivot value beyond 1e-9 in
    magnitude and a variable column below `width` outside `used` and used by no other step.
  */
  predicate StagesFrom(steps: seq<Step>, i: int, used: seq<int>, width: nat)
  {
    && (forall k :: 0 <= k < |steps| ==>
          && steps[k].pivotRow == i - 1 + k
          && steps[k].desc.Stage? && steps[k].desc.number == i + k
          && Abs(steps[k].desc.pivotValue) > Eps
          && 1 <= steps[k].pivotCol < width && steps[k].pivotCol !in used)
    && (forall k, l :: 0 <= k < l < |steps| ==> steps[k].pivotCol != steps[l].pivotCol)
  }

  /** A stage with a fresh column in front of the later stages. */
  lemma StagesCons(step: Step, rest: seq<Step>, i: int, used: seq<int>, width: nat)
    requires step.pivotRow == i - 1 && step.desc.Stage? && step.desc.number == i
    requires Abs(step.desc.pivotValue) > Eps
    requires 1 <= step.pivotCol < width && step.pivotCol !in used
    requires StagesFrom(rest, i + 1, used + [step.pivotCol], width)
    ensures StagesFrom([step] + rest, i, used, width)
  {
    var steps := [step] + rest;
    forall k | 1 <= k < |steps|
      ensures steps[k] == rest[k - 1] && steps[k].pivotCol != step.pivotCol && steps[k].pivotCol !in used
    {
      assert rest[k - 1].pivotCol !in used + [step.pivotCol];
    }
  }

  /**
    solveSteps reports an error only for a row labelled "0" that reads 0 = c with c beyond
    1e-9, in the tableau the stages end on or in its trimmed form, and the error carries c.
  */
  lemma SolveErrorIsContradiction(a: Matrix, rLabels: seq<Label>, cLabels: seq<Label>)
    requires Tableau(a, rLabels, cLabels).Valid() && |a| > 0 && (|cLabels| > 0 || "0" !in rLabels)
    ensures var w := Rounds(Tableau(a, rLabels, cLabels), [], 1, MatrixRank(a)).last;
      var f := Trim(w);
      Solve(a, rLabels, cLabels).error.Some? <==>
        (exists i :: 0 <= i < |w.matrix| && Contradicts(w.matrix[i], w.rowLabels[i]))
        || (exists i :: 0 <= i < |f.matrix| && Contradicts(f.matrix[i], f.rowLabels[i]))
    ensures var w := Rounds(Tableau(a, rLabels, cLabels), [], 1, MatrixRank(a)).last;
      var f := Trim(w);
      Solve(a, rLabels, cLabels).error.Some? ==>
        (exists i :: 0 <= i < |w.matrix| && Contradicts(w.matrix[i], w.rowLabels[i])
                     && Solve(a, rLabels, cLabels).error.value.residual == w.matrix[i][0])
        || (exists i :: 0 <= i < |f.matrix| && Contradicts(f.matrix[i], f.rowLabels[i])
                        && Solve(a, rLabels, cLabels).error.value.residual == f.matrix[i][0])
    ensures Solve(a, rLabels, cLabels).error.Some? ==>
      Solve(a, rLabels, cLabels).steps == Rounds(Tableau(a, rLabels, cLabels), [], 1, MatrixRank(a)).steps
  {
    SolveErrorSource(a, rLabels, cLabels);
  }

  /** The error of solveSteps is the first contradiction before trimming, else the first after. */
  lemma SolveErrorSource(a: Matrix, rLabels: seq<Label>, cLabels: seq<Label>)
    requires Tableau(a, rLabels, cLabels).Valid() && |a| > 0 && (|cLabels| > 0 || "0" !in rLabels)
    ensures var w := Rounds(Tableau(a, rLabels, cLabels), [], 1, MatrixRank(a)).last;
      var f := Trim(w);
      Solve(a, rLabels, cLabels).error ==
        if FirstContradiction(w.matrix, w.rowLabels, 0).Some? then FirstContradiction(w.matrix, w.rowLabels, 0)
        else FirstContradiction(f.matrix, f.rowLabels, 0)
  {
  }

  /**
    When solveSteps succeeds, the steps are those of the stages, followed by one final step
    without a pivot exactly when trimming changed the dimensions; that step holds the
    trimmed tableau, which has no "0" column, no zero row and no contradicting row.
  */
  lemma SolveSuccess(a: Matrix, rLabels: seq<Label>, cLabels: seq<Label>)
    requires Tableau(a, rLabels, cLabels).Valid() && |a| > 0 && (|cLabels| > 0 || "0" !in rLabels)
    requires Solve(a, rLabels, cLabels).error.None?
    ensures var run := Rounds(Tableau(a, rLabels, cLabels), [], 1, MatrixRank(a));
      var f := Trim(run.last);
      var steps := Solve(a, rLabels, cLabels).steps;
      && (steps == run.steps || steps == run.steps + [Step(FinalMatrix, f.matrix, f.rowLabels, f.colLabels, -1, -1)])
      && (steps != run.steps <==> f.matrix != run.last.matrix || f.colLabels != run.last.colLabels)
      && (forall i :: 0 <= i < |f.matrix| ==> !Contradicts(f.matrix[i], f.rowLabels[i]))
      && (|cLabels| > 0 ==>
            && (forall j :: 0 <= j < |f.colLabels| ==> f.colLabels[j] != "0")
            && (forall i :: 0 <= i < |f.matrix| ==> HasNonzeroCell(f.matrix[i])))
  {
    var run := Rounds(Tableau(a, rLabels, cLabels), [], 1, MatrixRank(a));
    var w := run.last;
    SolveOk(a, rLabels, cLabels);
    if |cLabels| > 0 {
      TrimLeavesNoZeros(w);
    }
    TrimShrinks(w);
  }

  /** A run without error passed both checks and took the final step on a change of dimensions. */
  lemma SolveOk(a: Matrix, rLabels: seq<Label>, cLabels: seq<Label>)
    requires Tableau(a, rLabels, cLabels).Valid() && |a| > 0 && (|cLabels| > 0 || "0" !in rLabels)
    requires Solve(a, rLabels, cLabels).error.None?
    ensures var run := Rounds(Tableau(a, rLabels, cLabels), [], 1, MatrixRank(a));
      var w := run.last;
      var f := Trim(w);
      && FirstContradiction(w.matrix, w.rowLabels, 0).None?
      && FirstContradiction(f.matrix, f.rowLabels, 0).None?
      && Solve(a, rLabels, cLabels).steps ==
           if |f.matrix| != |w.matrix| || |f.matrix[0]| != |w.matrix[0]|
           then run.steps + [Step(FinalMatrix, f.matrix, f.rowLabels, f.colLabels, -1, -1)]
           else run.steps
  {
  }

  /** Trimming changes a tableau exactly when it changes its dimensions. */
  lemma TrimShrinks(t: Tableau)
    requires t.Valid() && |t.matrix| > 0
    ensures Trim(t).matrix != t.matrix || Trim(t).colLabels != t.colLabels
      <==> |Trim(t).matrix| != |t.matrix| || |Trim(t).matrix| == 0 || |Trim(t).matrix[0]| != |t.matrix[0]|
  {
    var r := Trim(t);
    if |t.colLabels| > 0 && |r.matrix| == |t.matrix| && |r.matrix| > 0 && |r.matrix[0]| == |t.matrix[0]| {
      var cols := Positions(KeptColumns(t.colLabels), |t.colLabels|);
      assert |r.matrix[0]| == |cols|;
      TrimKeepsAll(t);
    }
  }

  /** The steps `steps` followed by a run. */
  function Then(steps: seq<Step>, run: Run): Run
  {
    Run(steps + run.steps, run.last)
  }

  /** When the stage loop stops, the steps it holds are the whole run (RunStages's exit). */
  lemma ThenNothing(steps: seq<Step>, t: Tableau)
    ensures Then(steps, Run([], t)) == Run(steps, t)
  {
    assert steps + [] == steps;
  }

  /** The stage loop's invariant carries over a stage that finds a pivot. */
  lemma StageAdvance(t0: Tableau, steps: seq<Step>, current: Tableau, used: seq<int>, i: nat, rank: int,
                     chosen: Tableau, j: int, step: Step)
    requires t0.Valid() && 1 <= i && rank <= |t0.matrix|
    requires current.Valid() && i <= rank && rank <= |current.matrix|
    requires Rounds(t0, [], 1, rank) == Then(steps, Rounds(current, used, i, rank))
    requires Choose(current, used, i) == PivotAt(chosen, j)
    requires step == StageStep(chosen, Exchange(chosen, i - 1, j), i, j)
    ensures Rounds(t0, [], 1, rank) == Then(steps + [step], Rounds(Exchange(chosen, i - 1, j), used + [j], i + 1, rank))
  {
    RoundsStep(current, used, i, rank, chosen, j);
    ThenSnoc(steps, step, Rounds(Exchange(chosen, i - 1, j), used + [j], i + 1, rank));
  }

  /** Moving one step from the run still to come onto the steps taken (StageAdvance). */
  lemma ThenSnoc(steps: seq<Step>, step: Step, rest: Run)
    ensures Then(steps, Run([step] + rest.steps, rest.last)) == Then(steps + [step], rest)
  {
    assert steps + ([step] + rest.steps) == (steps + [step]) + rest.steps;
  }

  // ---------------------------------------------------------------------------------
  // Reading the general solution.
  // ---------------------------------------------------------------------------------

  /** The variables that label a row: the basic variables. */
  function BasicVars(rowLabels: seq<Label>): set<Label>
  {
    set i | 0 <= i < |rowLabels| && IsVariable(rowLabels[i]) :: rowLabels[i]
  }

  /** Columns labelled by a variable that is not basic: the free parameters. */
  function FreeColumns(colLabels: seq<Label>, basic: set<Label>): seq<bool>
  {
    seq(|colLabels|, j requires 0 <= j < |colLabels| =>
      IsVariable(colLabels[j]) && colLabels[j] !in basic && colLabels[j] != "1")
  }

  /** Columns (never column 0) whose free parameter enters the row with a coefficient beyond 1e-9. */
  function TermColumns(row: seq<real>, colLabels: seq<Label>, basic: set<Label>): seq<bool>
    requires |row| >= |colLabels|
  {
    seq(|colLabels|, j requires 0 <= j < |colLabels| =>
      1 <= j && IsVariable(colLabels[j]) && colLabels[j] !in basic && Abs(row[j]) > Eps)
  }

  /** The terms of a basic variable's equation, in column order. */
  function Terms(row: seq<real>, colLabels: seq<Label>, basic: set<Label>): seq<Term>
    requires |row| >= |colLabels|
  {
    Gather(AllTerms(row, colLabels), Positions(TermColumns(row, colLabels, basic), |colLabels|))
  }

  /** Every column as a term, the constant column included. */
  function AllTerms(row: seq<real>, colLabels: seq<Label>): (ts: seq<Term>)
    requires |row| >= |colLabels|
    ensures |ts| == |colLabels|
  {
    seq(|colLabels|, j requires 0 <= j < |colLabels| => Term(colLabels[j], row[j]))
  }

  /** The equation row i gives when it is labelled by a variable. */
  function RowEquation(m: Matrix, rowLabels: seq<Label>, colLabels: seq<Label>, basic: set<Label>, i: nat): Equation
    requires Tableau(m, rowLabels, colLabels).Valid() && i < |m| && |colLabels| > 0
  {
    Basic(rowLabels[i], m[i][0], Terms(m[i], colLabels, basic))
  }

  /** The number of rows getEguations reads: the rank, or none when it is negative. */
  function Rows(rank: int): nat
  {
    if rank < 0 then 0 else rank
  }

  /** Rows below the rank labelled by a variable need a constant cell. */
  predicate Readable(m: Matrix, rowLabels: seq<Label>, colLabels: seq<Label>, rank: int)
  {
    Tableau(m, rowLabels, colLabels).Valid() && rank <= |m| && (|colLabels| > 0 || forall i :: 0 <= i < Rows(rank) ==> !IsVariable(rowLabels[i]))
  }

  /**
    What getEguations returns: for each row below the rank labelled by a variable, in row
    order, that variable as the constant plus its terms; then each free parameter, in column
    order.
  */
  function Equations(m: Matrix, rowLabels: seq<Label>, colLabels: seq<Label>, rank: int): seq<Equation>
    requires Readable(m, rowLabels, colLabels, rank)
  {
    var basic := BasicVars(rowLabels);
    var n := Rows(rank);
    var rows := Positions(VariableRows(rowLabels), n);
    // A row not labelled by a variable gets a placeholder, never seen: `rows` skips it.
    var equations := seq(n, i requires 0 <= i < n =>
      if IsVariable(rowLabels[i]) then RowEquation(m, rowLabels, colLabels, basic, i) else Free(rowLabels[i]));
    var frees := seq(|colLabels|, j requires 0 <= j < |colLabels| => Free(colLabels[j]));
    Gather(equations, rows) + Gather(frees, Positions(FreeColumns(colLabels, basic), |colLabels|))
  }

  /** getEguations: the basic variables, the free parameters, then the equations. */
  method GetEquations(arr: Matrix, rowLabels: seq<Label>, colLabels: seq<Label>, rank: int) returns (result: seq<Equation>)
    requires Readable(arr, rowLabels, colLabels, rank)
    ensures result == Equations(arr, rowLabels, colLabels, rank)
  {
    var basicVars := CollectBasic(rowLabels);
    var freeVars := CollectFree(colLabels, basicVars);
    var basics := BasicEquations(arr, rowLabels, colLabels, basicVars, rank);
    var frees := FreeEquations(colLabels, basicVars, freeVars);
    result := basics + frees;
  }

  /** The first loop of getEguations: the set of basic variables. */
  method CollectBasic(rowLabels: seq<Label>) returns (basicVars: set<Label>)
    ensures basicVars == BasicVars(rowLabels)
  {
    basicVars := {};
    for i := 0 to |rowLabels|
      invariant basicVars == BasicVars(rowLabels[..i])
    {
      assert rowLabels[..i + 1] == rowLabels[..i] + [rowLabels[i]];
      if IsVariable(rowLabels[i]) {
        basicVars := basicVars + {rowLabels[i]};
      }
      BasicVarsSnoc(rowLabels[..i], rowLabels[i]);
    }
    assert rowLabels[..|rowLabels|] == rowLabels;
  }

  lemma BasicVarsSnoc(labels: seq<Label>, l: Label)
    ensures BasicVars(labels + [l]) == BasicVars(labels) + (if IsVariable(l) then {l} else {})
  {
    var s := labels + [l];
    forall x | x in BasicVars(s)
      ensures x in BasicVars(labels) + (if IsVariable(l) then {l} else {})
    {
      var i :| 0 <= i < |s| && IsVariable(s[i]) && s[i] == x;
      if i < |labels| {
        assert labels[i] == x;
      }
    }
    forall x | x in BasicVars(labels)
      ensures x in BasicVars(s)
    {
      var i :| 0 <= i < |labels| && IsVariable(labels[i]) && labels[i] == x;
      assert s[i] == x;
    }
    if IsVariable(l) {
      assert s[|labels|] == l;
    }
  }

  /** The second loop of getEguations: the free parameters in column order. */
  method CollectFree(colLabels: seq<Label>, basicVars: set<Label>) returns (freeVars: seq<Label>)
    ensures freeVars == Gather(colLabels, Positions(FreeColumns(colLabels, basicVars), |colLabels|))
  {
    ghost var mask := FreeColumns(colLabels, basicVars);
    freeVars := [];
    for j := 0 to |colLabels|
      invariant freeVars == Gather(colLabels, Positions(mask, j))
    {
      var cl := colLabels[j];
      if IsVariable(cl) && cl !in basicVars && cl != "1" {
        GatherSnoc(colLabels, Positions(mask, j), j);
        freeVars := freeVars + [cl];
      }
    }
  }

  /** The third loop of getEguations: one equation per variable row below the rank. */
  method BasicEquations(arr: Matrix, rowLabels: seq<Label>, colLabels: seq<Label>, basicVars: set<Label>, rank: int)
    returns (result: seq<Equation>)
    requires Readable(arr, rowLabels, colLabels, rank)
    ensures var n := Rows(rank);
      result == Gather(seq(n, i requires 0 <= i < n =>
        if IsVariable(rowLabels[i]) then RowEquation(arr, rowLabels, colLabels, basicVars, i) else Free(rowLabels[i])),
        Positions(VariableRows(rowLabels), n))
  {
    ghost var n := Rows(rank);
    ghost var equations := seq(n, i requires 0 <= i < n =>
      if IsVariable(rowLabels[i]) then RowEquation(arr, rowLabels, colLabels, basicVars, i) else Free(rowLabels[i]));
    result := [];
    var i := 0;
    while i < rank
      invariant 0 <= i <= n
      invariant result == Gather(equations, Positions(VariableRows(rowLabels), i))
    {
      if IsVariable(rowLabels[i]) {
        var constant := arr[i][0];
        var terms := RowTerms(arr[i], colLabels, basicVars);
        GatherSnoc(equations, Positions(VariableRows(rowLabels), i), i);
        result := result + [Basic(rowLabels[i], constant, terms)];
      }
      i := i + 1;
    }
  }

  /** The last loop of getEguations: each free parameter equals itself. */
  method FreeEquations(colLabels: seq<Label>, basicVars: set<Label>, freeVars: seq<Label>) returns (result: seq<Equation>)
    requires freeVars == Gather(colLabels, Positions(FreeColumns(colLabels, basicVars), |colLabels|))
    ensures result == Gather(seq(|colLabels|, j requires 0 <= j < |colLabels| => Free(colLabels[j])),
      Positions(FreeColumns(colLabels, basicVars), |colLabels|))
  {
    ghost var frees := seq(|colLabels|, j requires 0 <= j < |colLabels| => Free(colLabels[j]));
    ghost var freeCols := Positions(FreeColumns(colLabels, basicVars), |colLabels|);
    result := [];
    for k := 0 to |freeVars|
      invariant result == Gather(frees, freeCols[..k])
    {
      assert freeVars[k] == colLabels[freeCols[k]];
      assert freeCols[..k + 1] == freeCols[..k] + [freeCols[k]];
      result := result + [Free(freeVars[k])];
    }
    assert freeCols[..|freeVars|] == freeCols;
  }

  /** The inner loop of getEguations: the terms of one row. */
  method RowTerms(row: seq<real>, colLabels: seq<Label>, basicVars: set<Label>) returns (terms: seq<Term>)
    requires |row| >= |colLabels|
    ensures terms == Terms(row, colLabels, basicVars)
  {
    ghost var all := AllTerms(row, colLabels);
    ghost var mask := TermColumns(row, colLabels, basicVars);
    terms := [];
    if |colLabels| == 0 {
      return;
    }
    PositionsSkip(mask, 1);
    var j := 1;
    while j < |colLabels|
      invariant 1 <= j <= |colLabels|
      invariant terms == Gather(all, Positions(mask, j))
    {
      TermsStep(row, colLabels, basicVars, j);
      if IsVariable(colLabels[j]) && colLabels[j] !in basicVars {
        var coef := row[j];
        if Abs(coef) > Eps {
          terms := terms + [Term(colLabels[j], coef)];
        }
      }
      j := j + 1;
    }
  }

  /** Column j adds its term exactly when it is a free parameter with a coefficient beyond 1e-9. */
  lemma TermsStep(row: seq<real>, colLabels: seq<Label>, basic: set<Label>, j: nat)
    requires 1 <= j < |colLabels| <= |row|
    ensures var all := AllTerms(row, colLabels);
      var mask := TermColumns(row, colLabels, basic);
      if IsVariable(colLabels[j]) && colLabels[j] !in basic && Abs(row[j]) > Eps
      then Gather(all, Positions(mask, j + 1)) == Gather(all, Positions(mask, j)) + [Term(colLabels[j], row[j])]
      else Gather(all, Positions(mask, j + 1)) == Gather(all, Positions(mask, j))
  {
    var all := AllTerms(row, colLabels);
    var mask := TermColumns(row, colLabels, basic);
    if mask[j] {
      PositionsTake(mask, j + 1);
      GatherSnoc(all, Positions(mask, j), j);
    } else {
      PositionsSkip(mask, j + 1);
    }
  }

  /**
    getSolutionVector: nothing for an empty trace, else the equations of the last step with
    every one of its rows below the rank.
  */
  method GetSolutionVector(steps: seq<Step>) returns (r: Option<seq<Equation>>)
    requires steps != [] ==> var last := steps[|steps| - 1];
      Readable(last.matrix, last.rowLabels, last.colLabels, |last.matrix|)
    ensures r.None? <==> steps == []
    ensures r.Some? ==> var last := steps[|steps| - 1];
      r.value == Equations(last.matrix, last.rowLabels, last.colLabels, |last.matrix|)
  {
    if |steps| == 0 {
      return None;
    }
    var finalStep := steps[|steps| - 1];
    var rank := |finalStep.matrix|;
    var equations := GetEquations(finalStep.matrix, finalStep.rowLabels, finalStep.colLabels, rank);
    return Some(equations);
  }

  /** The equations of the rows, before the free parameters. */
  function RowEquations(m: Matrix, rowLabels: seq<Label>, colLabels: seq<Label>, rank: int): (es: seq<Equation>)
    requires Readable(m, rowLabels, colLabels, rank)
  {
    var n := Rows(rank);
    Gather(seq(n, i requires 0 <= i < n =>
      if IsVariable(rowLabels[i]) then RowEquation(m, rowLabels, colLabels, BasicVars(rowLabels), i) else Free(rowLabels[i])),
      Positions(VariableRows(rowLabels), n))
  }

  /** The equations of the free parameters. */
  function FreeEquationsOf(rowLabels: seq<Label>, colLabels: seq<Label>): (es: seq<Equation>)
  {
    Gather(seq(|colLabels|, j requires 0 <= j < |colLabels| => Free(colLabels[j])),
      Positions(FreeColumns(colLabels, BasicVars(rowLabels)), |colLabels|))
  }

  lemma EquationsSplit(m: Matrix, rowLabels: seq<Label>, colLabels: seq<Label>, rank: int)
    requires Readable(m, rowLabels, colLabels, rank)
    ensures Equations(m, rowLabels, colLabels, rank)
      == RowEquations(m, rowLabels, colLabels, rank) + FreeEquationsOf(rowLabels, colLabels)
  {
  }

  /** Each row equation is the equation of a variable row below the rank. */
  lemma RowEquationOrigin(m: Matrix, rowLabels: seq<Label>, colLabels: seq<Label>, rank: int, k: nat)
    requires Readable(m, rowLabels, colLabels, rank)
    requires k < |RowEquations(m, rowLabels, colLabels, rank)|
    ensures var i := Positions(VariableRows(rowLabels), Rows(rank))[k];
      i < Rows(rank) && IsVariable(rowLabels[i])
      && RowEquations(m, rowLabels, colLabels, rank)[k] == RowEquation(m, rowLabels, colLabels, BasicVars(rowLabels), i)
  {
    var i := Positions(VariableRows(rowLabels), Rows(rank))[k];
    assert VariableRows(rowLabels)[i];
  }

  /** Every variable row below the rank has its equation. */
  lemma EquationsCoverRows(m: Matrix, rowLabels: seq<Label>, colLabels: seq<Label>, rank: int)
    requires Readable(m, rowLabels, colLabels, rank)
    ensures forall i :: 0 <= i < Rows(rank) && IsVariable(rowLabels[i]) ==>
      RowEquation(m, rowLabels, colLabels, BasicVars(rowLabels), i) in Equations(m, rowLabels, colLabels, rank)
  {
    EquationsSplit(m, rowLabels, colLabels, rank);
    var rows := Positions(VariableRows(rowLabels), Rows(rank));
    forall i | 0 <= i < Rows(rank) && IsVariable(rowLabels[i])
      ensures RowEquation(m, rowLabels, colLabels, BasicVars(rowLabels), i) in Equations(m, rowLabels, colLabels, rank)
    {
      assert VariableRows(rowLabels)[i];
      var k :| 0 <= k < |rows| && rows[k] == i;
      RowEquationOrigin(m, rowLabels, colLabels, rank, k);
      assert RowEquations(m, rowLabels, colLabels, rank)[k] in RowEquations(m, rowLabels, colLabels, rank);
    }
  }

  /** Every equation with a right-hand side is for a basic variable. */
  lemma EquationsForBasic(m: Matrix, rowLabels: seq<Label>, colLabels: seq<Label>, rank: int)
    requires Readable(m, rowLabels, colLabels, rank)
    ensures forall e :: e in Equations(m, rowLabels, colLabels, rank) && e.Basic? ==> e.variable in BasicVars(rowLabels)
  {
    EquationsSplit(m, rowLabels, colLabels, rank);
    var front := RowEquations(m, rowLabels, colLabels, rank);
    var back := FreeEquationsOf(rowLabels, colLabels);
    forall e | e in Equations(m, rowLabels, colLabels, rank) && e.Basic?
      ensures e.variable in BasicVars(rowLabels)
    {
      if e in front {
        var k :| 0 <= k < |front| && front[k] == e;
        RowEquationOrigin(m, rowLabels, colLabels, rank, k);
      }
    }
  }

  /** A `Free` equation appears exactly for each variable column that no row names. */
  lemma EquationsFree(m: Matrix, rowLabels: seq<Label>, colLabels: seq<Label>, rank: int, v: Label)
    requires Readable(m, rowLabels, colLabels, rank)
    ensures Free(v) in Equations(m, rowLabels, colLabels, rank)
      <==> v in colLabels && IsVariable(v) && v !in BasicVars(rowLabels)
  {
    EquationsSplit(m, rowLabels, colLabels, rank);
    if Free(v) in Equations(m, rowLabels, colLabels, rank) {
      FreeEquationOrigin(m, rowLabels, colLabels, rank, v);
    }
    if v in colLabels && IsVariable(v) && v !in BasicVars(rowLabels) {
      FreeEquationPresent(rowLabels, colLabels, v);
    }
  }

  lemma FreeEquationOrigin(m: Matrix, rowLabels: seq<Label>, colLabels: seq<Label>, rank: int, v: Label)
    requires Readable(m, rowLabels, colLabels, rank)
    requires Free(v) in RowEquations(m, rowLabels, colLabels, rank) + FreeEquationsOf(rowLabels, colLabels)
    ensures v in colLabels && IsVariable(v) && v !in BasicVars(rowLabels)
  {
    var front := RowEquations(m, rowLabels, colLabels, rank);
    var back := FreeEquationsOf(rowLabels, colLabels);
    var freeCols := Positions(FreeColumns(colLabels, BasicVars(rowLabels)), |colLabels|);
    if Free(v) in front {
      var k :| 0 <= k < |front| && front[k] == Free(v);
      RowEquationOrigin(m, rowLabels, colLabels, rank, k);
      assert false;
    }
    var k :| 0 <= k < |back| && back[k] == Free(v);
    assert colLabels[freeCols[k]] == v;
  }

  lemma FreeEquationPresent(rowLabels: seq<Label>, colLabels: seq<Label>, v: Label)
    requires v in colLabels && IsVariable(v) && v !in BasicVars(rowLabels)
    ensures Free(v) in FreeEquationsOf(rowLabels, colLabels)
  {
    var freeCols := Positions(FreeColumns(colLabels, BasicVars(rowLabels)), |colLabels|);
    var j :| 0 <= j < |colLabels| && colLabels[j] == v;
    FreeColumn(colLabels, BasicVars(rowLabels), j);
    var k :| 0 <= k < |freeCols| && freeCols[k] == j;
    assert FreeEquationsOf(rowLabels, colLabels)[k] == Free(v);
  }

  /** Every term names a free parameter, and its coefficient exceeds 1e-9 in magnitude. */
  lemma EquationsTermsAreFree(m: Matrix, rowLabels: seq<Label>, colLabels: seq<Label>, rank: int)
    requires Readable(m, rowLabels, colLabels, rank)
    ensures var es := Equations(m, rowLabels, colLabels, rank);
      forall e, t :: e in es && e.Basic? && t in e.terms ==> Free(t.variable) in es && Abs(t.coef) > Eps
  {
    EquationsSplit(m, rowLabels, colLabels, rank);
    var basic := BasicVars(rowLabels);
    var front := RowEquations(m, rowLabels, colLabels, rank);
    var back := FreeEquationsOf(rowLabels, colLabels);
    var es := Equations(m, rowLabels, colLabels, rank);
    forall e, t | e in es && e.Basic? && t in e.terms
      ensures Free(t.variable) in es && Abs(t.coef) > Eps
    {
      if e in back {
        var k :| 0 <= k < |back| && back[k] == e;
        assert false;
      }
      var k :| 0 <= k < |front| && front[k] == e;
      RowEquationOrigin(m, rowLabels, colLabels, rank, k);
      var i := Positions(VariableRows(rowLabels), Rows(rank))[k];
      TermIsFree(m[i], colLabels, basic, t);
      EquationsFree(m, rowLabels, colLabels, rank, t.variable);
    }
  }

  /** A term of a row names a variable column that is not basic, with a coefficient beyond 1e-9. */
  lemma TermIsFree(row: seq<real>, colLabels: seq<Label>, basic: set<Label>, t: Term)
    requires |row| >= |colLabels| && t in Terms(row, colLabels, basic)
    ensures t.variable in colLabels && IsVariable(t.variable) && t.variable !in basic && Abs(t.coef) > Eps
  {
    var mask := TermColumns(row, colLabels, basic);
    var cols := Positions(mask, |colLabels|);
    var ts := Terms(row, colLabels, basic);
    var l :| 0 <= l < |ts| && ts[l] == t;
    var j := cols[l];
    assert mask[j];
    assert t == Term(colLabels[j], row[j]);
  }

  /** A free column is one the free-parameter mask selects. */
  lemma FreeColumn(colLabels: seq<Label>, basic: set<Label>, j: nat)
    requires j < |colLabels| && IsVariable(colLabels[j]) && colLabels[j] !in basic
    ensures FreeColumns(colLabels, basic)[j]
  {
    assert colLabels[j][0] == 'x';
  }

  /** The value of the terms of an equation under an assignment. */
  function TermsValue(terms: seq<Term>, env: Label -> real): real
  {
    Dot(seq(|terms|, k requires 0 <= k < |terms| => terms[k].coef),
        Values(seq(|terms|, k requires 0 <= k < |terms| => terms[k].variable), env))
  }

  /**
    The equation of a variable row means what the row means: when the row holds, column 0
    is the constant 1 and every column the terms leave out has a zero coefficient or a zero
    value, the basic variable equals the constant plus the terms.
  */
  lemma RowEquationHolds(m: Matrix, rowLabels: seq<Label>, colLabels: seq<Label>, i: nat, env: Label -> real)
    requires Tableau(m, rowLabels, colLabels).Valid() && i < |m| && |colLabels| > 0
    requires colLabels[0] == "1" && env("1") == 1.0
    requires env(rowLabels[i]) == Dot(m[i], Values(colLabels, env))
    requires LeftOutVanish(m[i], colLabels, BasicVars(rowLabels), env)
    ensures var e := RowEquation(m, rowLabels, colLabels, BasicVars(rowLabels), i);
      env(e.variable) == e.constant + TermsValue(e.terms, env)
  {
    var x := Values(colLabels, env);
    ConstantColumnOut(m[i], x);
    TermsCoverRest(m[i], colLabels, BasicVars(rowLabels), env);
    TermsOfRow(m[i], colLabels, BasicVars(rowLabels), env);
  }

  /** With the value 1 in column 0, clearing that cell takes the constant out of the row. */
  lemma ConstantColumnOut(row: seq<real>, x: seq<real>)
    requires |row| == |x| > 0 && x[0] == 1.0
    ensures Dot(row[0 := 0.0], x) == Dot(row, x) - row[0]
  {
    DotUpdateLeft(row, x, 0, 0.0);
    ClearTimesOne(row[0], x[0]);
  }

  /**
    The selected coefficients and values of a row give the row without its constant, when
    every column left out past the constant has a zero coefficient or a zero value.
  */
  lemma TermsCoverRest(row: seq<real>, colLabels: seq<Label>, basic: set<Label>, env: Label -> real)
    requires |row| == |colLabels| > 0 && LeftOutVanish(row, colLabels, basic, env)
    ensures var ps := Positions(TermColumns(row, colLabels, basic), |colLabels|);
      Dot(Gather(row, ps), Gather(Values(colLabels, env), ps)) == Dot(row[0 := 0.0], Values(colLabels, env))
  {
    var x := Values(colLabels, env);
    var n := |colLabels|;
    var mask := TermColumns(row, colLabels, basic);
    var ps := Positions(mask, n);
    var rest := row[0 := 0.0];
    assert forall j :: 1 <= j < n && !mask[j] ==> row[j] == 0.0 || x[j] == 0.0;
    ClearedConstantVanishes(row, x, mask);
    DotGatherAll(rest, x, mask);
    GatherPastConstant(row, mask, n);
  }

  /** Clearing column 0 makes every column the mask leaves out vanish, column 0 included. */
  lemma ClearedConstantVanishes(row: seq<real>, x: seq<real>, mask: seq<bool>)
    requires |row| == |x| == |mask| > 0
    requires forall j :: 1 <= j < |row| && !mask[j] ==> row[j] == 0.0 || x[j] == 0.0
    ensures forall j :: 0 <= j < |row| && !mask[j] ==> row[0 := 0.0][j] == 0.0 || x[j] == 0.0
  {
  }

  /** Positions that never select column 0 gather the same cells with column 0 cleared. */
  lemma GatherPastConstant(row: seq<real>, mask: seq<bool>, n: nat)
    requires 0 < |row| && n <= |mask| && n <= |row| && (n > 0 ==> !mask[0])
    ensures Gather(row[0 := 0.0], Positions(mask, n)) == Gather(row, Positions(mask, n))
  {
    var ps := Positions(mask, n);
    forall k | 0 <= k < |ps|
      ensures row[0 := 0.0][ps[k]] == row[ps[k]]
    {
      assert mask[ps[k]];
    }
  }

  /** The cleared constant cell times the value 1 of column 0 (ConstantColumnOut). */
  lemma ClearTimesOne(a: real, one: real)
    requires one == 1.0
    ensures (0.0 - a) * one == -a
  {
  }

  /** Every column past the constant that the terms leave out has a zero coefficient or a zero value. */
  predicate LeftOutVanish(row: seq<real>, colLabels: seq<Label>, basic: set<Label>, env: Label -> real)
    requires |row| == |colLabels|
  {
    forall j :: 1 <= j < |colLabels| && !TermColumns(row, colLabels, basic)[j] ==>
      row[j] == 0.0 || env(colLabels[j]) == 0.0
  }

  /** The terms of a row are worth its selected coefficients times the selected values. */
  lemma TermsOfRow(row: seq<real>, colLabels: seq<Label>, basic: set<Label>, env: Label -> real)
    requires |row| == |colLabels|
    ensures var ps := Positions(TermColumns(row, colLabels, basic), |colLabels|);
      TermsValue(Terms(row, colLabels, basic), env) == Dot(Gather(row, ps), Gather(Values(colLabels, env), ps))
  {
    var ps := Positions(TermColumns(row, colLabels, basic), |colLabels|);
    var ts := Terms(row, colLabels, basic);
    assert seq(|ts|, k requires 0 <= k < |ts| => ts[k].coef) == Gather(row, ps);
    assert seq(|ts|, k requires 0 <= k < |ts| => ts[k].variable) == Gather(colLabels, ps);
    GatherValues(colLabels, ps, env);
  }

  // ---------------------------------------------------------------------------------
  // Two runs worked through.
  // ---------------------------------------------------------------------------------

  /** The rows 5 = 0 and 3 = 0 offer no pivot, and the first is reported: 0 = 5. */
  lemma InconsistentExample()
    ensures Solve([[5.0, 0.0], [3.0, 0.0]], ["0", "0"], ["1", "x1"]) == Solved([], Some(Inconsistent(5.0)))
  {
    var t := Tableau([[5.0, 0.0], [3.0, 0.0]], ["0", "0"], ["1", "x1"]);
    assert FirstAllowed(t.matrix[0], [], 1) == -1;
    assert FirstAllowed(t.matrix[1], [], 1) == -1;
    assert Choose(t, [], 1) == NoPivot;
    assert Rounds(t, [], 1, MatrixRank(t.matrix)) == Run([], t);
    assert Contradicts(t.matrix[0], "0");
  }

  /**
    The single equation 2 + 4 x1 = 0: stage 1 pivots on the 4, giving x1 = -0.5 + 0.25 * 0;
    the "0" column is then dropped, a final step records [[-0.5]], and the solution reads
    x1 = -0.5.
  */
  lemma SolvedExample()
    ensures var final := Step(FinalMatrix, [[-0.5]], ["x1"], ["1"], -1, -1);
      Solve([[2.0, 4.0]], ["0"], ["1", "x1"]) ==
        Solved([Step(Stage(1, 4.0, 1, 1), [[-0.5, 0.25]], ["x1"], ["1", "0"], 0, 1), final], None)
      && Equations(final.matrix, final.rowLabels, final.colLabels, |final.matrix|) == [Basic("x1", -0.5, [])]
  {
    ExampleSolve();
    ExampleEquations();
  }

  lemma ExampleSolve()
    ensures Solve([[2.0, 4.0]], ["0"], ["1", "x1"]) ==
      Solved([Step(Stage(1, 4.0, 1, 1), [[-0.5, 0.25]], ["x1"], ["1", "0"], 0, 1),
              Step(FinalMatrix, [[-0.5]], ["x1"], ["1"], -1, -1)], None)
  {
    var t := Tableau([[2.0, 4.0]], ["0"], ["1", "x1"]);
    var next := Tableau([[-0.5, 0.25]], ["x1"], ["1", "0"]);
    ExampleStage();
    ExampleTrim();
    ExampleNoContradiction();
    var run := Rounds(t, [], 1, MatrixRank(t.matrix));
    assert run.last == next;
    assert |Trim(next).matrix[0]| != |next.matrix[0]|;
  }

  lemma ExampleNoContradiction()
    ensures FirstContradiction([[-0.5, 0.25]], ["x1"], 0) == None
    ensures FirstContradiction([[-0.5]], ["x1"], 0) == None
  {
    assert !Contradicts([-0.5, 0.25], "x1");
    assert !Contradicts([-0.5], "x1");
  }

  lemma ExampleStage()
    ensures var t := Tableau([[2.0, 4.0]], ["0"], ["1", "x1"]);
      var next := Tableau([[-0.5, 0.25]], ["x1"], ["1", "0"]);
      Rounds(t, [], 1, MatrixRank(t.matrix)) == Run([Step(Stage(1, 4.0, 1, 1), next.matrix, next.rowLabels, next.colLabels, 0, 1)], next)
  {
    var t := Tableau([[2.0, 4.0]], ["0"], ["1", "x1"]);
    assert FirstAllowed(t.matrix[0], [], 1) == 1;
    assert Choose(t, [], 1) == PivotAt(t, 1);
    ExampleExchange();
    var next := Exchange(t, 0, 1);
    assert Rounds(next, [1], 2, 1) == Run([], next);
  }

  lemma ExampleExchange()
    ensures Exchange(Tableau([[2.0, 4.0]], ["0"], ["1", "x1"]), 0, 1) == Tableau([[-0.5, 0.25]], ["x1"], ["1", "0"])
  {
    var t := Tableau([[2.0, 4.0]], ["0"], ["1", "x1"]);
    var e := ExactExchange(t, 0, 1);
    assert ExactCell(t.matrix, 0, 1, 0, 0) == -0.5 && ExactCell(t.matrix, 0, 1, 0, 1) == 0.25;
    assert e.matrix[0] == [-0.5, 0.25];
    RoundInteger(-500);
    RoundInteger(250);
    assert Round3(-0.5) == -0.5 && Round3(0.25) == 0.25;
    var next := Exchange(t, 0, 1);
    assert next.matrix[0] == [-0.5, 0.25];
  }

  lemma ExampleTrim()
    ensures Trim(Tableau([[-0.5, 0.25]], ["x1"], ["1", "0"])) == Tableau([[-0.5]], ["x1"], ["1"])
  {
    var t := Tableau([[-0.5, 0.25]], ["x1"], ["1", "0"]);
    ExampleKeptColumns();
    ExampleKeptRows();
    assert Gather(t.matrix[0], [0]) == [-0.5];
    assert Gather(t.rowLabels, [0]) == ["x1"];
    assert Gather(t.colLabels, [0]) == ["1"];
  }

  lemma ExampleKeptColumns()
    ensures Positions(KeptColumns(["1", "0"]), 2) == [0]
  {
    var mask := KeptColumns(["1", "0"]);
    assert mask[0] && !mask[1];
    PositionsSkip(mask, 2);
    PositionsTake(mask, 1);
  }

  lemma ExampleKeptRows()
    ensures Positions(KeptRows([[-0.5, 0.25]], [0]), 1) == [0]
  {
    var m: Matrix := [[-0.5, 0.25]];
    var cols: seq<nat> := [0];
    var mask := KeptRows(m, cols);
    assert NonzeroOn(m[0], cols) by {
      assert Abs(m[0][cols[0]]) > Eps;
    }
    assert mask[0] == NonzeroOn(m[0], cols);
    PositionsTake(mask, 1);
  }

  lemma ExampleEquations()
    ensures Equations([[-0.5]], ["x1"], ["1"], 1) == [Basic("x1", -0.5, [])]
  {
    ExampleRowEquations();
    ExampleNoFreeEquations();
    EquationsSplit([[-0.5]], ["x1"], ["1"], 1);
  }

  lemma ExampleRowEquations()
    ensures RowEquations([[-0.5]], ["x1"], ["1"], 1) == [Basic("x1", -0.5, [])]
  {
    var m: Matrix := [[-0.5]];
    var rl: seq<Label> := ["x1"];
    var cl: seq<Label> := ["1"];
    var basic := BasicVars(rl);
    assert Positions(VariableRows(rl), 1) == [0] by {
      assert IsVariable(rl[0]);
      assert VariableRows(rl)[0];
    }
    assert Terms(m[0], cl, basic) == [] by {
      assert !IsVariable(cl[0]);
      assert !TermColumns(m[0], cl, basic)[0];
      assert Positions(TermColumns(m[0], cl, basic), 1) == [];
    }
    assert RowEquation(m, rl, cl, basic, 0) == Basic("x1", -0.5, []);
  }

  lemma ExampleNoFreeEquations()
    ensures FreeEquationsOf(["x1"], ["1"]) == []
  {
    var cl: seq<Label> := ["1"];
    assert !IsVariable(cl[0]);
    assert !FreeColumns(cl, BasicVars(["x1"]))[0];
    assert Positions(FreeColumns(cl, BasicVars(["x1"])), 1) == [];
  }

  /**
    Solving the final tableau again is not a no-op. The equation 1 + x1 - 2 x2 = 0 is solved
    by one stage and a trim into x1 = -1 + 2 x2; solved again, that tableau still offers the
    pivot 2 in the x2 column, so at least one more step is taken.
  */
  lemma ResolveTakesStep()
    ensures var first := Solve([[1.0, 1.0, -2.0]], ["0"], ["1", "x1", "x2"]);
      first == Solved([Step(Stage(1, 1.0, 1, 1), [[-1.0, 1.0, 2.0]], ["x1"], ["1", "0", "x2"], 0, 1),
                       Step(FinalMatrix, [[-1.0, 2.0]], ["x1"], ["1", "x2"], -1, -1)], None)
    ensures |Solve([[-1.0, 2.0]], ["x1"], ["1", "x2"]).steps| >= 1
  {
    ResolveFirst();
    ResolveAgain();
  }

  lemma ResolveFirst()
    ensures Solve([[1.0, 1.0, -2.0]], ["0"], ["1", "x1", "x2"]) ==
      Solved([Step(Stage(1, 1.0, 1, 1), [[-1.0, 1.0, 2.0]], ["x1"], ["1", "0", "x2"], 0, 1),
              Step(FinalMatrix, [[-1.0, 2.0]], ["x1"], ["1", "x2"], -1, -1)], None)
  {
    var t := Tableau([[1.0, 1.0, -2.0]], ["0"], ["1", "x1", "x2"]);
    var next := Tableau([[-1.0, 1.0, 2.0]], ["x1"], ["1", "0", "x2"]);
    ResolveStage();
    ResolveTrim();
    assert !Contradicts(next.matrix[0], "x1");
    assert FirstContradiction(next.matrix, next.rowLabels, 0) == None;
    assert !Contradicts([-1.0, 2.0], "x1");
    assert FirstContradiction([[-1.0, 2.0]], ["x1"], 0) == None;
    var run := Rounds(t, [], 1, MatrixRank(t.matrix));
    assert run.last == next;
    assert |Trim(next).matrix[0]| != |next.matrix[0]|;
  }

  lemma ResolveStage()
    ensures var t := Tableau([[1.0, 1.0, -2.0]], ["0"], ["1", "x1", "x2"]);
      var next := Tableau([[-1.0, 1.0, 2.0]], ["x1"], ["1", "0", "x2"]);
      Rounds(t, [], 1, MatrixRank(t.matrix)) == Run([Step(Stage(1, 1.0, 1, 1), next.matrix, next.rowLabels, next.colLabels, 0, 1)], next)
  {
    var t := Tableau([[1.0, 1.0, -2.0]], ["0"], ["1", "x1", "x2"]);
    assert MatrixRank(t.matrix) == 1;
    assert FirstAllowed(t.matrix[0], [], 1) == 1;
    assert Choose(t, [], 1) == PivotAt(t, 1);
    ResolveExchange();
    var next := Exchange(t, 0, 1);
    assert Rounds(next, [1], 2, 1) == Run([], next);
  }

  lemma ResolveExchange()
    ensures Exchange(Tableau([[1.0, 1.0, -2.0]], ["0"], ["1", "x1", "x2"]), 0, 1) ==
      Tableau([[-1.0, 1.0, 2.0]], ["x1"], ["1", "0", "x2"])
  {
    var t := Tableau([[1.0, 1.0, -2.0]], ["0"], ["1", "x1", "x2"]);
    var e := ExactExchange(t, 0, 1);
    assert ExactCell(t.matrix, 0, 1, 0, 0) == -1.0 && ExactCell(t.matrix, 0, 1, 0, 1) == 1.0
      && ExactCell(t.matrix, 0, 1, 0, 2) == 2.0;
    assert e.matrix[0] == [-1.0, 1.0, 2.0];
    RoundInteger(-1000);
    RoundInteger(1000);
    RoundInteger(2000);
    assert Round3(-1.0) == -1.0 && Round3(1.0) == 1.0 && Round3(2.0) == 2.0;
    var next := Exchange(t, 0, 1);
    assert next.matrix[0] == [-1.0, 1.0, 2.0];
  }

  lemma ResolveTrim()
    ensures Trim(Tableau([[-1.0, 1.0, 2.0]], ["x1"], ["1", "0", "x2"])) == Tableau([[-1.0, 2.0]], ["x1"], ["1", "x2"])
  {
    var t := Tableau([[-1.0, 1.0, 2.0]], ["x1"], ["1", "0", "x2"]);
    ResolveKeptColumns();
    ResolveKeptRows();
    var cols: seq<nat> := [0, 2];
    assert Gather(t.matrix[0], cols) == [-1.0, 2.0];
    assert Gather(t.rowLabels, [0]) == ["x1"];
    assert Gather(t.colLabels, cols) == ["1", "x2"];
  }

  lemma ResolveKeptColumns()
    ensures Positions(KeptColumns(["1", "0", "x2"]), 3) == [0, 2]
  {
    var mask := KeptColumns(["1", "0", "x2"]);
    assert mask[0] && !mask[1] && mask[2];
    PositionsTake(mask, 3);
    PositionsSkip(mask, 2);
    PositionsTake(mask, 1);
  }

  lemma ResolveKeptRows()
    ensures Positions(KeptRows([[-1.0, 1.0, 2.0]], [0, 2]), 1) == [0]
  {
    var m: Matrix := [[-1.0, 1.0, 2.0]];
    var cols: seq<nat> := [0, 2];
    var mask := KeptRows(m, cols);
    assert NonzeroOn(m[0], cols) by {
      assert Abs(m[0][cols[0]]) > Eps;
    }
    assert mask[0] == NonzeroOn(m[0], cols);
    PositionsTake(mask, 1);
  }

  /** The trimmed tableau [[-1, 2]] with x1 on its row still has an allowed column, x2's. */
  lemma ResolveAgain()
    ensures |Solve([[-1.0, 2.0]], ["x1"], ["1", "x2"]).steps| >= 1
  {
    var a: Matrix := [[-1.0, 2.0]];
    var t := Tableau(a, ["x1"], ["1", "x2"]);
    assert MatrixRank(a) == 1;
    assert FirstAllowed(a[0], [], 1) == 1;
    assert Choose(t, [], 1) == PivotAt(t, 1);
    RoundsStep(t, [], 1, 1, t, 1);
    SolveErrorIsContradiction(a, ["x1"], ["1", "x2"]);
    if Solve(a, ["x1"], ["1", "x2"]).error.None? {
      SolveSuccess(a, ["x1"], ["1", "x2"]);
    }
  }
}

=== FILE: zero_engine.dfy ===
/**
  The simple elimination engine of Zero.go: in round k it exchanges the row symbol of row k
  with the column symbol of column k + 1, for min(rows, columns - 1) rounds, with no pivot
  search, no row interchange, no rounding and no trimming.
*/
module ZeroEngine {
  import opened Grid

  /** Why a single exchange step refuses to run. */
  datatype StepError =
    | BadCoordinates              // the pivot cell lies outside the matrix
    | ZeroPivot(row: int, col: int)  // the pivot value is below 1e-9 in absolute value

  /** A failed round of the driver, numbered from 1, with the reason of its step. */
  datatype SolveError = AtRound(round: int, cause: StepError)

  /** One line of the solution vector: a basic variable and its value. */
  datatype Entry = Entry(variable: Label, value: real)

  /**
    The cell (i, j) after exchanging on (p, q) with pivot value v = m[p][q]:
    1/v at the pivot, -a/v in the rest of the pivot row, -a/v in the rest of the pivot
    column, and the rectangle rule a_ij - a_iq * a_pj / v everywhere else.
  */
  function Cell(m: Matrix, p: nat, q: nat, i: nat, j: nat): real
    requires p < |m| && i < |m| && q < |m[p]| && j < |m[p]| && q < |m[i]| && j < |m[i]|
    requires m[p][q] != 0.0
  {
    var v := m[p][q];
    if i == p && j == q then 1.0 / v
    else if i == p then -m[p][j] / v
    else if j == q then -m[i][q] / v
    else Rectangle(m[i][j], m[i][q], m[p][j], v)
  }

  /** The whole matrix after exchanging on (p, q). */
  function Exchanged(m: Matrix, p: nat, q: nat): (r: Matrix)
    requires p < |m| && IsRect(m, |m[0]|) && q < |m[0]| && m[p][q] != 0.0
    ensures |r| == |m| && IsRect(r, |m[0]|)
  {
    seq(|m|, i requires 0 <= i < |m| =>
      seq(|m[0]|, j requires 0 <= j < |m[0]| => Cell(m, p, q, i, j)))
  }

  /** The pivot cell (p, q) lies inside the matrix (the bounds test of jordanStep). */
  predicate InMatrix(m: Matrix, p: int, q: int)
  {
    0 <= p < |m| && 0 <= q < |m[0]|
  }

  /** What jordanStep returns for the tableau `t` and the pivot (p, q). */
  ghost function Pivot(t: Tableau, p: int, q: int): (r: Result<Tableau, StepError>)
    requires t.Valid()
    ensures r.Ok? ==> r.value.Valid() && |r.value.matrix| == |t.matrix| && |r.value.colLabels| == |t.colLabels|
  {
    var m := t.matrix;
    if !InMatrix(m, p, q) then Err(BadCoordinates)
    else if Abs(m[p][q]) < Eps then Err(ZeroPivot(p, q))
    else Ok(Tableau(Exchanged(m, p, q), t.rowLabels[p := t.colLabels[q]], t.colLabels[q := t.rowLabels[p]]))
  }

  /**
    jordanStep: one exchange on a copy of the input. Out-of-range coordinates and a pivot
    below 1e-9 are errors that return no tableau; otherwise the row symbol of p and the column
    symbol of q trade places and every cell follows Cell.
  */
  method JordanStep(inMatrix: Matrix, inRowLabels: seq<Label>, inColLabels: seq<Label>, pivotRow: int, pivotCol: int)
    returns (r: Result<Tableau, StepError>)
    requires Tableau(inMatrix, inRowLabels, inColLabels).Valid()
    ensures r == Pivot(Tableau(inMatrix, inRowLabels, inColLabels), pivotRow, pivotCol)
    ensures r == Err(BadCoordinates) <==> !(0 <= pivotRow < |inMatrix| && 0 <= pivotCol < |inColLabels|)
    ensures r == Err(ZeroPivot(pivotRow, pivotCol)) <==>
      0 <= pivotRow < |inMatrix| && 0 <= pivotCol < |inColLabels| && Abs(inMatrix[pivotRow][pivotCol]) < Eps
    ensures r.Ok? ==>
      var out := r.value;
      && out.Valid()
      && |out.matrix| == |inMatrix| && |out.colLabels| == |inColLabels|
      && out.rowLabels == inRowLabels[pivotRow := inColLabels[pivotCol]]
      && out.colLabels == inColLabels[pivotCol := inRowLabels[pivotRow]]
    ensures r.Ok? ==>
      forall i, j :: 0 <= i < |inMatrix| && 0 <= j < |inColLabels| ==>
        r.value.matrix[i][j] == Cell(inMatrix, pivotRow, pivotCol, i, j)
  {
    if pivotRow < 0 || pivotRow >= |inMatrix| || pivotCol < 0 || pivotCol >= |inMatrix[0]| {
      return Err(BadCoordinates);
    }
    var pivot := inMatrix[pivotRow][pivotCol];
    if Abs(pivot) < Eps {
      return Err(ZeroPivot(pivotRow, pivotCol));
    }
    var p, q := pivotRow, pivotCol;
    var rows, cols := |inMatrix|, |inMatrix[0]|;
    // The clones of the input are plain value copies.
    var outMatrix := inMatrix;
    var outRowLabels, outColLabels := inRowLabels, inColLabels;
    outRowLabels, outColLabels := outRowLabels[p := outColLabels[q]], outColLabels[q := outRowLabels[p]];
    var tempMatrix := inMatrix;
    outMatrix := outMatrix[p := outMatrix[p][q := 1.0 / pivot]];

    for j := 0 to cols
      invariant |outMatrix| == rows && IsRect(outMatrix, cols)
      invariant forall i', j' :: 0 <= i' < rows && 0 <= j' < cols ==>
        outMatrix[i'][j'] == if i' == p && (j' == q || j' < j) then Cell(tempMatrix, p, q, i', j') else tempMatrix[i'][j']
    {
      if j != q {
        outMatrix := outMatrix[p := outMatrix[p][j := -tempMatrix[p][j] / pivot]];
      }
    }

    for i := 0 to rows
      invariant |outMatrix| == rows && IsRect(outMatrix, cols)
      invariant forall i', j' :: 0 <= i' < rows && 0 <= j' < cols ==>
        outMatrix[i'][j'] == if i' == p || (j' == q && i' < i) then Cell(tempMatrix, p, q, i', j') else tempMatrix[i'][j']
    {
      if i != p {
        outMatrix := outMatrix[i := outMatrix[i][q := -tempMatrix[i][q] / pivot]];
      }
    }

    for i := 0 to rows
      invariant |outMatrix| == rows && IsRect(outMatrix, cols)
      invariant forall i', j' :: 0 <= i' < rows && 0 <= j' < cols ==>
        outMatrix[i'][j'] == if i' == p || j' == q || i' < i then Cell(tempMatrix, p, q, i', j') else tempMatrix[i'][j']
    {
      if i != p {
        for j := 0 to cols
          invariant |outMatrix| == rows && IsRect(outMatrix, cols)
          invariant forall i', j' :: 0 <= i' < rows && 0 <= j' < cols ==>
            outMatrix[i'][j'] == if i' == p || j' == q || i' < i || (i' == i && j' < j)
                                 then Cell(tempMatrix, p, q, i', j') else tempMatrix[i'][j']
        {
          if j != q {
            outMatrix := outMatrix[i := outMatrix[i][j := tempMatrix[i][j] - (tempMatrix[i][q] * tempMatrix[p][j]) / pivot]];
          }
        }
      }
    }

    assert outMatrix == Exchanged(inMatrix, p, q) by {
      forall i | 0 <= i < rows
        ensures outMatrix[i] == Exchanged(inMatrix, p, q)[i]
      {
      }
    }
    return Ok(Tableau(outMatrix, outRowLabels, outColLabels));
  }

  // ---------------------------------------------------------------------------------
  // Two exchanges on the same cell, and the meaning of an exchange.
  // ---------------------------------------------------------------------------------

  /** Inverting 1/v gives v back: the pivot cell of ExchangeTwiceCell. */
  lemma InverseTwice(v: real)
    requires v != 0.0
    ensures 1.0 / (1.0 / v) == v
  {
  }

  /** A cell of the pivot row or column, negated and divided by v twice, comes back (ExchangeTwiceCell). */
  lemma NegDivTwice(a: real, v: real)
    requires v != 0.0
    ensures -((-a) / v) / (1.0 / v) == a
  {
    assert (-a) / v * v == -a;
  }

  /** The rectangle rule applied twice subtracts the correction twice (ExchangeTwiceCell). */
  lemma RectangleTwice(a: real, b: real, c: real, v: real)
    requires v != 0.0
    ensures (a - (b * c) / v) - (((-b) / v) * ((-c) / v)) / (1.0 / v) == a - 2.0 * (b * c) / v
  {
    var bv, cv := (-b) / v, (-c) / v;
    assert bv * v == -b && cv * v == -c;
    assert bv * cv * (v * v) == b * c;
    assert (bv * cv) / (1.0 / v) == bv * cv * v;
    assert bv * cv * v * v == b * c;
    assert bv * cv * v == (b * c) / v;
  }

  /** One cell of ExchangeTwice. */
  lemma ExchangeTwiceCell(m: Matrix, p: nat, q: nat, i: nat, j: nat)
    requires p < |m| && IsRect(m, |m[0]|) && q < |m[0]| && m[p][q] != 0.0
    requires i < |m| && j < |m[0]|
    ensures Exchanged(m, p, q)[p][q] != 0.0
    ensures Exchanged(Exchanged(m, p, q), p, q)[i][j] ==
      if i == p || j == q then m[i][j] else m[i][j] - 2.0 * (m[i][q] * m[p][j]) / m[p][q]
  {
    var v := m[p][q];
    var m1 := Exchanged(m, p, q);
    assert m1[p][q] == 1.0 / v;
    assert Exchanged(m1, p, q)[i][j] == Cell(m1, p, q, i, j);
    if i == p && j == q {
      InverseTwice(v);
    } else if i == p {
      assert m1[p][j] == (-m[p][j]) / v;
      NegDivTwice(m[p][j], v);
    } else if j == q {
      assert m1[i][q] == (-m[i][q]) / v;
      NegDivTwice(m[i][q], v);
    } else {
      assert m1[i][j] == Rectangle(m[i][j], m[i][q], m[p][j], v);
      assert m1[i][q] == (-m[i][q]) / v;
      assert m1[p][j] == (-m[p][j]) / v;
      RectangleTwice(m[i][j], m[i][q], m[p][j], v);
    }
  }

  /**
    Exchanging twice on (p, q) gives back the pivot cell, the pivot row and the pivot
    column, but every other cell moves by -2 * a_iq * a_pj / v: the second exchange is not
    an inverse unless a_iq * a_pj = 0.
  */
  lemma ExchangeTwice(m: Matrix, p: nat, q: nat)
    requires p < |m| && IsRect(m, |m[0]|) && q < |m[0]| && m[p][q] != 0.0
    ensures Exchanged(m, p, q)[p][q] != 0.0
    ensures var m2 := Exchanged(Exchanged(m, p, q), p, q);
      forall i, j :: 0 <= i < |m| && 0 <= j < |m[0]| ==>
        m2[i][j] == if i == p || j == q then m[i][j] else m[i][j] - 2.0 * (m[i][q] * m[p][j]) / m[p][q]
  {
    ExchangeTwiceCell(m, p, q, p, q);
    forall i, j | 0 <= i < |m| && 0 <= j < |m[0]|
      ensures Exchanged(Exchanged(m, p, q), p, q)[i][j] ==
        if i == p || j == q then m[i][j] else m[i][j] - 2.0 * (m[i][q] * m[p][j]) / m[p][q]
    {
      ExchangeTwiceCell(m, p, q, i, j);
    }
  }

  /** On [[1, 1], [1, 1]] two exchanges on (0, 1) do not restore the matrix. */
  lemma TwiceIsNotIdentity()
    ensures var m := [[1.0, 1.0], [1.0, 1.0]];
      Exchanged(Exchanged(m, 0, 1), 0, 1) != m
  {
    var m := [[1.0, 1.0], [1.0, 1.0]];
    ExchangeTwice(m, 0, 1);
    assert Exchanged(Exchanged(m, 0, 1), 0, 1)[1][0] == -1.0;
  }

  /**
    What a non-pivot row i loses after the exchange on (p, q) when the old pivot-row symbol
    has the value y: twice a_iq / v times y.
  */
  function Drift(b: real, v: real, y: real): real
    requires v != 0.0
  {
    2.0 * (b / v) * y
  }

  /**
    Meaning of one exchange: if `env` satisfies every row equation of `t`, then after the
    exchange the pivot row still holds and every other row i is off by
    -2 * (a_iq / v) * env(rowLabels[p]). So the exchange keeps the meaning exactly when the
    pivot row's symbol has the value 0, as a row labelled "0" does.
  */
  lemma {:induction false} PivotMeaning(t: Tableau, p: int, q: int, env: Label -> real)
    requires t.Valid() && Pivot(t, p, q).Ok? && Holds(t, env)
    ensures var t2 := Pivot(t, p, q).value;
      var x2 := Values(t2.colLabels, env);
      && env(t2.rowLabels[p]) == Dot(t2.matrix[p], x2)
      && forall i :: 0 <= i < |t.matrix| && i != p ==>
           Dot(t2.matrix[i], x2) ==
             env(t2.rowLabels[i]) - Drift(t.matrix[i][q], t.matrix[p][q], env(t.rowLabels[p]))
  {
    var m, t2 := t.matrix, Pivot(t, p, q).value;
    var x := Values(t.colLabels, env);
    var y := env(t.rowLabels[p]);
    assert Values(t2.colLabels, env) == x[q := y];
    assert y == Dot(m[p], x);
    assert env(t2.rowLabels[p]) == x[q];
    ExchangedRows(m, p, q, x);
    assert forall i :: 0 <= i < |m| && i != p ==> env(t2.rowLabels[i]) == Dot(m[i], x);
  }

  /**
    The rows of an exchanged matrix against the old column values with the pivot column's
    value replaced by the old pivot row's value.
  */
  lemma ExchangedRows(m: Matrix, p: nat, q: nat, x: seq<real>)
    requires p < |m| && IsRect(m, |m[0]|) && q < |m[0]| && m[p][q] != 0.0 && |x| == |m[0]|
    ensures Dot(Exchanged(m, p, q)[p], x[q := Dot(m[p], x)]) == x[q]
    ensures forall i :: 0 <= i < |m| && i != p ==>
      Dot(Exchanged(m, p, q)[i], x[q := Dot(m[p], x)]) == Dot(m[i], x) - Drift(m[i][q], m[p][q], Dot(m[p], x))
  {
    PivotRowMeaning(m[p], x, q, Exchanged(m, p, q)[p]);
    forall i | 0 <= i < |m| && i != p
      ensures Dot(Exchanged(m, p, q)[i], x[q := Dot(m[p], x)]) == Dot(m[i], x) - Drift(m[i][q], m[p][q], Dot(m[p], x))
    {
      ExchangedRow(m, p, q, i, x);
    }
  }

  /** One non-pivot row of ExchangedRows. */
  lemma ExchangedRow(m: Matrix, p: nat, q: nat, i: nat, x: seq<real>)
    requires p < |m| && IsRect(m, |m[0]|) && q < |m[0]| && m[p][q] != 0.0 && |x| == |m[0]|
    requires i < |m| && i != p
    ensures Dot(Exchanged(m, p, q)[i], x[q := Dot(m[p], x)]) == Dot(m[i], x) - Drift(m[i][q], m[p][q], Dot(m[p], x))
  {
    ExchangedRowCells(m, p, q, i);
    OtherRowOfPivot(m[i], m[p], x, q, Exchanged(m, p, q)[i]);
  }

  /** The cells of a non-pivot row after the exchange. */
  lemma ExchangedRowCells(m: Matrix, p: nat, q: nat, i: nat)
    requires p < |m| && IsRect(m, |m[0]|) && q < |m[0]| && m[p][q] != 0.0
    requires i < |m| && i != p
    ensures var ri := Exchanged(m, p, q)[i];
      && |ri| == |m[i]|
      && ri[q] == (-m[i][q]) / m[p][q]
      && forall j :: 0 <= j < |ri| && j != q ==> ri[j] == Rectangle(m[i][j], m[i][q], m[p][j], m[p][q])
  {
    var ri := Exchanged(m, p, q)[i];
    forall j | 0 <= j < |ri| && j != q
      ensures ri[j] == Rectangle(m[i][j], m[i][q], m[p][j], m[p][q])
    {
      assert ri[j] == Cell(m, p, q, i, j);
    }
    assert ri[q] == Cell(m, p, q, i, q);
  }

  /** A non-pivot row after the exchange, with -a_iq / v in the pivot column. */
  lemma {:induction false} OtherRowOfPivot(ai: seq<real>, ap: seq<real>, x: seq<real>, q: nat, r: seq<real>)
    requires |ai| == |ap| == |x| == |r| && q < |ap| && ap[q] != 0.0
    requires forall j :: 0 <= j < |r| && j != q ==> r[j] == Rectangle(ai[j], ai[q], ap[j], ap[q])
    requires r[q] == (-ai[q]) / ap[q]
    ensures Dot(r, x[q := Dot(ap, x)]) == Dot(ai, x) - Drift(ai[q], ap[q], Dot(ap, x))
  {
    OtherRowMeaning(ai, ap, x, q, r);
    NegatedColumnDrift(ai[q], ap[q], Dot(ap, x));
  }

  /** With -b / v in the pivot column, the row ends up twice b / v times y short. */
  lemma NegatedColumnDrift(b: real, v: real, y: real)
    requires v != 0.0
    ensures ((-b) / v) * y - (b / v) * y == -Drift(b, v, y)
  {
    assert (-b) / v == -(b / v);
  }

  /** A pivot row whose symbol has the value 0 makes the exchange keep the tableau's meaning. */
  lemma {:induction false} PivotOnZeroRowKeepsMeaning(t: Tableau, p: int, q: int, env: Label -> real)
    requires t.Valid() && Pivot(t, p, q).Ok? && Holds(t, env)
    requires env(t.rowLabels[p]) == 0.0
    ensures Holds(Pivot(t, p, q).value, env)
  {
    PivotMeaning(t, p, q, env);
  }

  /**
    The pivot column's sign matters once the pivot row's symbol is not 0: on
    y1 = 1 + x1 and y2 = 1 + x1, with x1 = 1 and y1 = y2 = 2, the exchange on (0, 1)
    turns the second row into y2 = -y1, which no longer holds.
  */
  lemma NonzeroPivotRowBreaksMeaning()
    ensures var t := Tableau([[1.0, 1.0], [1.0, 1.0]], ["y1", "y2"], ["1", "x1"]);
      var env := (l: Label) => if l == "1" || l == "x1" then 1.0 else 2.0;
      t.Valid() && Holds(t, env) && Pivot(t, 0, 1).Ok? && !Holds(Pivot(t, 0, 1).value, env)
  {
    var t := Tableau([[1.0, 1.0], [1.0, 1.0]], ["y1", "y2"], ["1", "x1"]);
    var env := (l: Label) => if l == "1" || l == "x1" then 1.0 else 2.0;
    assert Values(t.colLabels, env) == [1.0, 1.0];
    assert Holds(t, env);
    var t2 := Pivot(t, 0, 1).value;
    PivotMeaning(t, 0, 1, env);
    assert env(t2.rowLabels[1]) == 2.0;
  }

  // ---------------------------------------------------------------------------------
  // The driver.
  // ---------------------------------------------------------------------------------

  /** The step recorded for round k (0-based), which turned `t` into `next`. */
  function RoundStep(t: Tableau, next: Tableau, k: nat): Step
    requires t.Valid() && k < |t.matrix| && k + 1 < |t.colLabels|
  {
    Step(Round(k + 1, k, k + 1, t.matrix[k][k + 1], t.rowLabels[k], t.colLabels[k + 1]),
         next.matrix, next.rowLabels, next.colLabels, k, k + 1)
  }

  /** The number of rounds solveSteps runs: min(rows, columns - 1). */
  function Iterations(a: Matrix): int
    requires |a| > 0
  {
    Min(|a|, |a[0]| - 1)
  }

  /** The steps of rounds k .. n-1 from the tableau `t`, or the first round that fails. */
  ghost function Trace(t: Tableau, k: int, n: int): Result<seq<Step>, SolveError>
    requires t.Valid() && 0 <= k && n <= |t.matrix| && n + 1 <= |t.colLabels|
    decreases n - k
  {
    if k >= n then Ok([])
    else match Pivot(t, k, k + 1)
      case Err(e) => Err(AtRound(k + 1, e))
      case Ok(next) =>
        match Trace(next, k + 1, n)
        case Err(e) => Err(e)
        case Ok(rest) => Ok([RoundStep(t, next, k)] + rest)
  }

  /** `steps` followed by the outcome of the remaining rounds. */
  function After(steps: seq<Step>, rest: Result<seq<Step>, SolveError>): Result<seq<Step>, SolveError>
  {
    match rest
    case Ok(more) => Ok(steps + more)
    case Err(e) => Err(e)
  }

  /**
    solveSteps: the rounds k = 0 .. min(rows, columns - 1) - 1, each exchanging on (k, k + 1)
    and recording a step; the first failing round aborts with its error and no steps.
  */
  method SolveSteps(a: Matrix, rLabels: seq<Label>, cLabels: seq<Label>) returns (r: Result<seq<Step>, SolveError>)
    requires Tableau(a, rLabels, cLabels).Valid() && |a| > 0
    ensures r == Trace(Tableau(a, rLabels, cLabels), 0, Iterations(a))
  {
    ghost var t0 := Tableau(a, rLabels, cLabels);
    var steps: seq<Step> := [];
    var workingMatrix, workingRowLabels, workingColLabels := a, rLabels, cLabels;
    var numIterations := Min(|workingMatrix|, |workingMatrix[0]| - 1);
    AfterNothing(Trace(t0, 0, numIterations));
    var k := 0;
    while k < numIterations
      invariant 0 <= k && (0 <= numIterations ==> k <= numIterations)
      invariant Tableau(workingMatrix, workingRowLabels, workingColLabels).Valid()
      invariant |workingMatrix| == |a| && |workingColLabels| == |cLabels|
      invariant Trace(t0, 0, numIterations) ==
        After(steps, Trace(Tableau(workingMatrix, workingRowLabels, workingColLabels), k, numIterations))
      decreases numIterations - k
    {
      ghost var current := Tableau(workingMatrix, workingRowLabels, workingColLabels);
      var pivotRow, pivotCol := k, k + 1;
      var desc := Round(k + 1, pivotRow, pivotCol, workingMatrix[pivotRow][pivotCol],
                        workingRowLabels[pivotRow], workingColLabels[pivotCol]);
      var next := JordanStep(workingMatrix, workingRowLabels, workingColLabels, pivotRow, pivotCol);
      if next.Err? {
        return Err(AtRound(k + 1, next.error));
      }
      var step := Step(desc, next.value.matrix, next.value.rowLabels, next.value.colLabels, pivotRow, pivotCol);
      assert step == RoundStep(current, next.value, k);
      AfterSnoc(steps, step, Trace(next.value, k + 1, numIterations));
      steps := steps + [step];
      workingMatrix, workingRowLabels, workingColLabels := next.value.matrix, next.value.rowLabels, next.value.colLabels;
      k := k + 1;
    }
    assert steps + [] == steps;
    return Ok(steps);
  }

  lemma AfterNothing(r: Result<seq<Step>, SolveError>)
    ensures After([], r) == r
  {
    if r.Ok? {
      assert [] + r.value == r.value;
    }
  }

  lemma AfterSnoc(steps: seq<Step>, step: Step, r: Result<seq<Step>, SolveError>)
    ensures After(steps, After([step], r)) == After(steps + [step], r)
  {
    if r.Ok? {
      assert steps + ([step] + r.value) == steps + [step] + r.value;
    }
  }

  /**
    A successful trace has one step per round; step s pivots on (k + s, k + s + 1) and its
    tableau is jordanStep applied to the tableau before it.
  */
  lemma {:induction false} TraceSucceeds(t: Tableau, k: int, n: int, steps: seq<Step>)
    requires t.Valid() && 0 <= k && n <= |t.matrix| && n + 1 <= |t.colLabels|
    requires Trace(t, k, n) == Ok(steps)
    ensures |steps| == if k < n then n - k else 0
    ensures forall s :: 0 <= s < |steps| ==> steps[s].pivotRow == k + s && steps[s].pivotCol == k + s + 1
    ensures forall s :: 0 <= s < |steps| ==>
      Before(t, steps, s).Valid() && Pivot(Before(t, steps, s), k + s, k + s + 1) == Ok(steps[s].State())
    decreases n - k
  {
    TraceIsChain(t, k, n, steps);
    forall s | 0 <= s < |steps|
      ensures steps[s].pivotRow == k + s && steps[s].pivotCol == k + s + 1
      ensures Before(t, steps, s).Valid() && Pivot(Before(t, steps, s), k + s, k + s + 1) == Ok(steps[s].State())
    {
      RoundChainAt(t, steps, k, s, k + s);
    }
  }

  /**
    `steps` are rounds k, k+1, ... taken one after another from b: the first pivots on
    (k, k + 1) of b, and the rest are taken from its tableau.
  */
  ghost predicate RoundChain(b: Tableau, steps: seq<Step>, k: int)
    decreases |steps|
  {
    |steps| == 0 ||
      (&& b.Valid() && steps[0].pivotRow == k && steps[0].pivotCol == k + 1
       && Pivot(b, k, k + 1) == Ok(steps[0].State())
       && RoundChain(steps[0].State(), steps[1..], k + 1))
  }

  /** A successful trace is a chain of rounds, one per round. */
  lemma {:induction false} TraceIsChain(t: Tableau, k: int, n: int, steps: seq<Step>)
    requires t.Valid() && 0 <= k && n <= |t.matrix| && n + 1 <= |t.colLabels|
    requires Trace(t, k, n) == Ok(steps)
    ensures |steps| == if k < n then n - k else 0
    ensures RoundChain(t, steps, k)
    decreases n - k
  {
    if k < n {
      var next := Pivot(t, k, k + 1).value;
      var rest := Trace(next, k + 1, n).value;
      TraceIsChain(next, k + 1, n, rest);
      assert steps == [RoundStep(t, next, k)] + rest;
      assert steps[1..] == rest;
    }
  }

  /** Step s of a chain of rounds from b is round m = k + s, taken from the tableau before it. */
  lemma {:induction false} RoundChainAt(b: Tableau, steps: seq<Step>, k: int, s: nat, m: int)
    requires RoundChain(b, steps, k) && s < |steps| && m == k + s
    ensures steps[s].pivotRow == m && steps[s].pivotCol == m + 1
    ensures Before(b, steps, s).Valid() && Pivot(Before(b, steps, s), m, m + 1) == Ok(steps[s].State())
    decreases s
  {
    if s > 0 {
      RoundChainAt(steps[0].State(), steps[1..], k + 1, s - 1, m);
      assert Before(b, steps, s) == Before(steps[0].State(), steps[1..], s - 1);
      assert steps[s] == steps[1..][s - 1];
    }
  }

  /**
    A failing trace fails at some round r in k+1 .. n with a zero pivot on the diagonal
    cell (r - 1, r): the coordinates are always inside the matrix.
  */
  lemma {:induction false} TraceFails(t: Tableau, k: int, n: int, e: SolveError)
    requires t.Valid() && 0 <= k && n <= |t.matrix| && n + 1 <= |t.colLabels|
    requires Trace(t, k, n) == Err(e)
    ensures k < e.round <= n
    ensures e.cause == ZeroPivot(e.round - 1, e.round)
    ensures Trace(t, k, e.round - 1).Ok?
    ensures var pre := Trace(t, k, e.round - 1).value;
      Before(t, pre, |pre|).Valid() && Pivot(Before(t, pre, |pre|), e.round - 1, e.round) == Err(e.cause)
    decreases n - k
  {
    if Pivot(t, k, k + 1).Ok? {
      var next := Pivot(t, k, k + 1).value;
      TraceFails(next, k + 1, n, e);
      var pre := Trace(next, k + 1, e.round - 1).value;
      assert Trace(t, k, e.round - 1) == Ok([RoundStep(t, next, k)] + pre);
      BeforeCons(t, RoundStep(t, next, k), pre);
    } else {
      assert Trace(t, k, e.round - 1) == Ok([]);
    }
  }

  /** The tableau after a step in front of others, seen from that step's tableau. */
  lemma BeforeCons(t: Tableau, step: Step, rest: seq<Step>)
    ensures Before(t, [step] + rest, |rest| + 1) == Before(step.State(), rest, |rest|)
  {
    if |rest| > 0 {
      assert ([step] + rest)[|rest|] == rest[|rest| - 1];
    }
  }

  /**
    When every row from k on carries a symbol of value 0 under `env` (initially every row is
    labelled "0"), every step of the trace still satisfies the equations `env` satisfies.
  */
  lemma {:induction false} TraceKeepsMeaning(t: Tableau, k: int, n: int, env: Label -> real, steps: seq<Step>)
    requires t.Valid() && 0 <= k && n <= |t.matrix| && n + 1 <= |t.colLabels|
    requires Trace(t, k, n) == Ok(steps) && Holds(t, env)
    requires forall i :: k <= i < |t.matrix| ==> env(t.rowLabels[i]) == 0.0
    ensures forall s :: 0 <= s < |steps| ==> steps[s].State().Valid() && Holds(steps[s].State(), env)
    decreases n - k
  {
    if k < n {
      var next := Pivot(t, k, k + 1).value;
      var rest := Trace(next, k + 1, n).value;
      PivotOnZeroRowKeepsMeaning(t, k, k + 1, env);
      assert forall i :: k + 1 <= i < |next.matrix| ==> next.rowLabels[i] == t.rowLabels[i];
      TraceKeepsMeaning(next, k + 1, n, env, rest);
      assert steps == [RoundStep(t, next, k)] + rest;
    }
  }

  // ---------------------------------------------------------------------------------
  // Reading the solution.
  // ---------------------------------------------------------------------------------

  /** Every row labelled by a variable has a constant cell to read. */
  predicate VariableRowsReadable(final: Step)
  {
    final.State().Valid() && forall i :: 0 <= i < |final.rowLabels| && IsVariable(final.rowLabels[i]) ==> |final.matrix[i]| > 0
  }

  /** For each variable row, the entry it contributes: its label and its constant-column value. */
  function RowEntries(final: Step): seq<Entry>
    requires VariableRowsReadable(final)
  {
    seq(|final.rowLabels|, i requires 0 <= i < |final.rowLabels| =>
      Entry(final.rowLabels[i], if IsVariable(final.rowLabels[i]) then final.matrix[i][0] else 0.0))
  }

  /**
    getSolutionVector: nothing for an empty trace; otherwise one entry per row of the last
    step whose label starts with "x", in row order, carrying that row's column-0 value.
  */
  method GetSolutionVector(steps: seq<Step>) returns (r: Option<seq<Entry>>)
    requires steps != [] ==> VariableRowsReadable(steps[|steps| - 1])
    ensures r.None? <==> steps == []
    ensures r.Some? ==>
      var final := steps[|steps| - 1];
      var rows := Positions(VariableRows(final.rowLabels), |final.rowLabels|);
      && |r.value| == |rows|
      && forall k :: 0 <= k < |rows| ==> r.value[k] == Entry(final.rowLabels[rows[k]], final.matrix[rows[k]][0])
  {
    if |steps| == 0 {
      return None;
    }
    var finalStep := steps[|steps| - 1];
    ghost var entries := RowEntries(finalStep);
    ghost var mask := VariableRows(finalStep.rowLabels);
    var solution: seq<Entry> := [];
    for i := 0 to |finalStep.rowLabels|
      invariant solution == Gather(entries, Positions(mask, i))
    {
      if IsVariable(finalStep.rowLabels[i]) {
        var value := finalStep.matrix[i][0];
        GatherSnoc(entries, Positions(mask, i), i);
        solution := solution + [Entry(finalStep.rowLabels[i], value)];
      }
    }
    return Some(solution);
  }
}
